=== FILE: README.md ===
# bumpdeps in Dafny

`bumpdeps` is a command-line tool that runs after a library is released. It
bumps one key of `gradle.properties` in a list of downstream repositories to
the new version, then opens a pull request in each. Its core is the
non-destructive properties editor. The editor makes one pass over the lines of
the file and rewrites every line that assigns the key a different value to
`key=value`. It keeps every other line byte for byte. It reports two flags:
`matched` (some line holds the key) and `updated` (the LAST line holding the
key had a different value). Around the editor, the command does a few pure
things:

- it turns the `--ref` release ref into a version;
- it parses the reviewer list;
- it names the branch;
- it decides between polling the artifact's POM and a fixed sleep;
- it gates saving the edited file on both flags;
- it folds the per-repository attempts into the exit status.

The project has six modules:

- `Wrappers`: `Option` and `Result`.
- `Text`: the character classes and string operations the source gets from
  Java and Kotlin:
  - the regular-expression class `\s`;
  - Kotlin's `isWhitespace` and `trim`;
  - the line terminators that `.` refuses;
  - prefixes and suffixes;
  - single-character split and join.
- `PropertyLine`: the line pattern `^\s*<quoted key>\s*=(.*)$` under
  `matches()`, in two forms:
  - `ShapeAt`/`Matches` is the declarative one: some split of the line
    matches the pattern;
  - `MatchValue` is a left-to-right scan that computes group 1.

  The two are proved to agree for every key that `trim` returned.
- `PropertiesEditor`: the pass, written as a fold of `Step` with the
  accumulator `(lines, matched, updated)`. It also has the loop the source
  writes, the serialiser `saveResult`, and the properties of the pass.
  The pass is stated for any matcher (`Matcher`, a line's trimmed value or
  `None`). The editor instantiates it with `Current(key)`.
- `BumpDeps`: the pure decisions of `Main.kt`.
- `EditorScenarios`: the unit tests' cases.
  - Each is first stated for every key, value and padding of the shape the
    test uses.
  - Then it is instantiated with the test's literal lines (`foo`, `bar`,
    `baz`, the `Properties.store` file with its comment `the comments` and
    any date line).

## Model

| member | source | states |
|---|---|---|
| `Text.IsRegexWs` | src/main/kotlin/io/spinnaker/bumpdeps/NonDestructivePropertiesEditor.kt:18 | the pattern's `\s` without UNICODE_CHARACTER_CLASS: space, tab, line feed, vertical tab, form feed, carriage return |
| `Text.IsTrimWs` | src/main/kotlin/io/spinnaker/bumpdeps/NonDestructivePropertiesEditor.kt:17 | Kotlin `isWhitespace` on the JVM (`Character.isWhitespace` or `isSpaceChar`): the controls 9-13 and 28-31 and every space, line and paragraph separator; its relation to `\s` is `RegexWsIsTrimWs` |
| `Text.IsLineTerm` | src/main/kotlin/io/spinnaker/bumpdeps/NonDestructivePropertiesEditor.kt:18 | the characters `.` refuses without DOTALL: `\n`, `\r`, U+0085, U+2028, U+2029 |
| `Text.IsBlank` | src/main/kotlin/io/spinnaker/bumpdeps/Main.kt:120 | Kotlin `isBlank`: empty or `isWhitespace` characters only; it decides the fallback through `ConvertedRepoUrlBlank` |
| `Text.TrimStart` | src/main/kotlin/io/spinnaker/bumpdeps/NonDestructivePropertiesEditor.kt:17 | drops `isWhitespace` characters from the front; what it leaves is stated by `TrimStartSpec` |
| `Text.TrimEnd` | src/main/kotlin/io/spinnaker/bumpdeps/NonDestructivePropertiesEditor.kt:17 | drops `isWhitespace` characters from the back; what it leaves is stated by `TrimEndSpec` |
| `Text.Trim` | src/main/kotlin/io/spinnaker/bumpdeps/NonDestructivePropertiesEditor.kt:17 | Kotlin `trim`, both ends; its result is characterised as a slice by `TrimIsTrimmedSlice` |
| `Text.RegexWsIsTrimWs` | src/main/kotlin/io/spinnaker/bumpdeps/NonDestructivePropertiesEditor.kt:17-18 | every character of the pattern's `\s` is also whitespace to Kotlin's `trim`, so the two notions are nested, not equal |
| `Text.TrimIsTrimmedSlice` | src/main/kotlin/io/spinnaker/bumpdeps/NonDestructivePropertiesEditor.kt:17 | `trim` returns a contiguous slice of its input: only whitespace lies before and after it, and the slice itself neither starts nor ends with whitespace |
| `Text.TrimIdempotent` | src/main/kotlin/io/spinnaker/bumpdeps/NonDestructivePropertiesEditor.kt:26 | trimming a trimmed value changes nothing |
| `Text.TrimPadded` | src/main/kotlin/io/spinnaker/bumpdeps/NonDestructivePropertiesEditor.kt:26 | a value padded on both sides with whitespace trims back to the value, when the value has no whitespace at its ends |
| `Text.StartsWith` | src/main/kotlin/io/spinnaker/bumpdeps/Main.kt:45 | Kotlin `startsWith`: the string begins with the prefix; `ParseRef` and `ConvertReviewersArg` are stated through it, and `RemovePrefix` undoes it |
| `Text.EndsWith` | src/main/kotlin/io/spinnaker/bumpdeps/Main.kt:77 | Kotlin `endsWith`, the test inside `removeSuffix`; `RemoveSuffix` and `RepoUrlOption` are stated through it |
| `Text.RemovePrefix` | src/main/kotlin/io/spinnaker/bumpdeps/Main.kt:48 | Kotlin `removePrefix`: with the prefix present, prefix followed by the result is the input; without it, the input is returned unchanged |
| `Text.RemoveSuffix` | src/main/kotlin/io/spinnaker/bumpdeps/Main.kt:77 | Kotlin `removeSuffix`: with the suffix present, the result followed by the suffix is the input; without it, the input is returned unchanged |
| `Text.Split` | src/main/kotlin/io/spinnaker/bumpdeps/Main.kt:244 | Kotlin `split(',')`: at least one piece, no piece holds the separator, and joining the pieces with it gives the input back |
| `Text.SplitJoin` | src/main/kotlin/io/spinnaker/bumpdeps/Main.kt:244 | splitting undoes joining when no piece holds the separator |
| `Text.ReplaceChar` | src/main/kotlin/io/spinnaker/bumpdeps/Main.kt:125 | Kotlin `replace(old, new)` on characters: the length is kept, no `old` is left, and a string without `old` is returned as it is; what it does to a dotted name is `ReplaceInJoin` |
| `Text.ReplaceCharUndo` | src/main/kotlin/io/spinnaker/bumpdeps/Main.kt:125 | replacing back restores the string when the new character did not occur in it before |
| `Text.ReplaceInJoin` | src/main/kotlin/io/spinnaker/bumpdeps/Main.kt:125 | Kotlin `replace('.', '/')` on a dot-joined name: replacing every separator of a join of separator-free parts gives the join of the same parts with the new separator |
| `PropertyLine.TrimmedKeyIsRegexTrimmed` | src/main/kotlin/io/spinnaker/bumpdeps/NonDestructivePropertiesEditor.kt:17-18 | the key quoted into the pattern, being trimmed, has no `\s` at either end |
| `PropertyLine.ShapeAt` | src/main/kotlin/io/spinnaker/bumpdeps/NonDestructivePropertiesEditor.kt:18 | one way the whole line fits `^\s*<key>\s*=(.*)$`: blanks, the literal key at `a`, blanks, `=` at `b`, and a terminator-free value after it |
| `PropertyLine.Matches` | src/main/kotlin/io/spinnaker/bumpdeps/NonDestructivePropertiesEditor.kt:24 | `matches()`: some split of the line has that shape |
| `PropertyLine.MatchValue` | src/main/kotlin/io/spinnaker/bumpdeps/NonDestructivePropertiesEditor.kt:24 | the scan that returns group 1 or `None`; it decides `Matches` by `MatchValueIsMatch` and returns the group of every split by `MatchValueComplete` |
| `PropertyLine.MatchValueSound` | src/main/kotlin/io/spinnaker/bumpdeps/NonDestructivePropertiesEditor.kt:18-26 | whenever the scan yields a group, the whole line splits as `\s*`, the literal key, `\s*`, `=`, and a value without line terminators, and the group is that value |
| `PropertyLine.MatchValueComplete` | src/main/kotlin/io/spinnaker/bumpdeps/NonDestructivePropertiesEditor.kt:18-26 | for a regex-trimmed key, every split of a matching line puts the `=` at the same place, and the scan returns the text after it as group 1 |
| `PropertyLine.MatchValueIsMatch` | src/main/kotlin/io/spinnaker/bumpdeps/NonDestructivePropertiesEditor.kt:24 | the scan finds a group if and only if `matches()` succeeds on the whole line |
| `PropertyLine.PaddedAssignmentMatches` | src/main/kotlin/io/spinnaker/bumpdeps/NonDestructivePropertiesEditor.kt:18 | blanks before the key and around the `=` are allowed, and the captured group is everything after the `=` |
| `PropertyLine.AssignmentMatches` | src/main/kotlin/io/spinnaker/bumpdeps/NonDestructivePropertiesEditor.kt:29 | the line the editor writes, `key=value`, matches its own key and captures exactly `value` |
| `PropertyLine.LongerKeyDoesNotMatch` | src/main/kotlin/io/spinnaker/bumpdeps/NonDestructivePropertiesEditor.kt:18 | the key is matched whole: a line whose key merely starts with it does not match |
| `PropertyLine.CommentNeverMatches` | src/main/kotlin/io/spinnaker/bumpdeps/NonDestructivePropertiesEditor.kt:18 | a line starting with `#` does not match any key that does not itself start with `#` |
| `PropertyLine.LineTerminatorInValueDoesNotMatch` | src/main/kotlin/io/spinnaker/bumpdeps/NonDestructivePropertiesEditor.kt:18 | `.*` cannot cross a line terminator, so `key=value` with a terminator in the value does not match at all |
| `PropertiesEditor.EditOutcome` | src/main/kotlin/io/spinnaker/bumpdeps/NonDestructivePropertiesEditor.kt:48 | the editor's `Result`: the possibly rewritten lines, `matched` and `updated`; `UpdatePropertySpec` states each field |
| `PropertiesEditor.Current` | src/main/kotlin/io/spinnaker/bumpdeps/NonDestructivePropertiesEditor.kt:26 | a line's `current` for a key: group 1 of the pattern for the trimmed key, trimmed, or `None` when the line does not match; pinned by `CurrentIgnoresPadding`, `CurrentIsTrimmed` and `EditFollowsPattern` |
| `PropertiesEditor.LastCurrent` | src/main/kotlin/io/spinnaker/bumpdeps/NonDestructivePropertiesEditor.kt:27 | the effective value, read from the end: `None` exactly when no line holds the key, otherwise the value of a line holding it after which none does |
| `PropertiesEditor.EditLine` | src/main/kotlin/io/spinnaker/bumpdeps/NonDestructivePropertiesEditor.kt:24-32 | the per-line rule: a line without the key is kept, one whose `current` equals the value is kept, any other becomes `key=value` with the key untrimmed; `Edit` and `EditFollowsPattern` state the pass through it |
| `PropertiesEditor.Step` | src/main/kotlin/io/spinnaker/bumpdeps/NonDestructivePropertiesEditor.kt:22-32 | the body of the `map` lambda with its two flags: `exists` is set by every matching line and `modified` is overwritten by each; `EditMatched` and `EditUpdated` state the flags the fold ends with |
| `PropertiesEditor.Edit` | src/main/kotlin/io/spinnaker/bumpdeps/NonDestructivePropertiesEditor.kt:22-33 | the pass is a map: same number of lines, and line `i` of the output depends only on line `i` of the input, through the per-line rule |
| `PropertiesEditor.EditMatched` | src/main/kotlin/io/spinnaker/bumpdeps/NonDestructivePropertiesEditor.kt:25 | `matched` if and only if some line holds the key |
| `PropertiesEditor.EditUpdated` | src/main/kotlin/io/spinnaker/bumpdeps/NonDestructivePropertiesEditor.kt:27 | `updated` if and only if the effective (last) value exists and differs from the requested one; earlier lines play no part |
| `PropertiesEditor.UpdateProperty` | src/main/kotlin/io/spinnaker/bumpdeps/NonDestructivePropertiesEditor.kt:16-36 | `updateProperty(lines, key, value)`: the pass with the matcher for the key; its contract is `UpdatePropertySpec` |
| `PropertiesEditor.UpdatePropertySpec` | src/main/kotlin/io/spinnaker/bumpdeps/NonDestructivePropertiesEditor.kt:16-36 | the editor's result: per-line rule on every line, `matched` iff the key occurs, `updated` iff the last occurrence is stale, and `updated` implies `matched` |
| `PropertiesEditor.UpdatePropertyPass` | src/main/kotlin/io/spinnaker/bumpdeps/NonDestructivePropertiesEditor.kt:16-36 | the loop with two mutable flags and an output list, as the source writes it, computes exactly the fold |
| `PropertiesEditor.EditWritesOnlyAssignment` | src/main/kotlin/io/spinnaker/bumpdeps/NonDestructivePropertiesEditor.kt:28-32 | non-destructive: every output line is its input line or the assignment `key=value`, nothing else |
| `PropertiesEditor.EditConcat` | src/main/kotlin/io/spinnaker/bumpdeps/NonDestructivePropertiesEditor.kt:22-34 | editing `p + s` is editing `p` and `s` side by side; `matched` is either part's, and `updated` is the second part's whenever it holds the key |
| `PropertiesEditor.LastCurrentSnoc` | src/main/kotlin/io/spinnaker/bumpdeps/NonDestructivePropertiesEditor.kt:27 | a line appended at the end decides the effective value when it holds the key |
| `PropertiesEditor.LastCurrentConcat` | src/main/kotlin/io/spinnaker/bumpdeps/NonDestructivePropertiesEditor.kt:27 | the effective value of `p + s` is that of `s` when `s` holds the key, else that of `p` |
| `PropertiesEditor.LastMatchWins` | src/main/kotlin/io/spinnaker/bumpdeps/NonDestructivePropertiesEditor.kt:27 | once a later part of the file holds the key, nothing before it affects `updated`, though the earlier part is still rewritten line by line |
| `PropertiesEditor.EditFollowsPattern` | src/main/kotlin/io/spinnaker/bumpdeps/NonDestructivePropertiesEditor.kt:18-32 | in the pattern's own terms: a non-matching line comes back unchanged; a matching one is kept iff its trimmed group equals the value, and is otherwise exactly `key=value`; `matched` iff some line matches |
| `PropertiesEditor.EditIdempotent` | src/main/kotlin/io/spinnaker/bumpdeps/NonDestructivePropertiesEditor.kt:26-29 | for any matcher that reads `key=value` back as `value`, a second edit of the output changes no line, reports no update, and gives the same `matched` |
| `PropertiesEditor.Idempotent` | src/main/kotlin/io/spinnaker/bumpdeps/NonDestructivePropertiesEditor.kt:17-29 | with a trimmed key and a trimmed, terminator-free value, editing the editor's own output is a no-op with `updated == false` and the same `matched` |
| `PropertiesEditor.PaddedKeyLosesWrittenLine` | src/main/kotlin/io/spinnaker/bumpdeps/NonDestructivePropertiesEditor.kt:17-29 | the line is written with the key as given: a key ending in a character `trim` strips but `\s` does not match is trimmed for matching, but the written line then does not hold it |
| `PropertiesEditor.CurrentOfAssignment` | src/main/kotlin/io/spinnaker/bumpdeps/NonDestructivePropertiesEditor.kt:29 | the replacement line holds its key with current value equal to the value written |
| `PropertiesEditor.CurrentIgnoresPadding` | src/main/kotlin/io/spinnaker/bumpdeps/NonDestructivePropertiesEditor.kt:18-26 | blanks around the key, the `=` and the value are ignored: the line holds the key and its current value is the bare value |
| `PropertiesEditor.CurrentIsTrimmed` | src/main/kotlin/io/spinnaker/bumpdeps/NonDestructivePropertiesEditor.kt:26 | every current value is already trimmed |
| `PropertiesEditor.UntrimmedValueNeverSettles` | src/main/kotlin/io/spinnaker/bumpdeps/NonDestructivePropertiesEditor.kt:26-29 | a requested value with whitespace at an end never equals a current value: every run that finds the key reports `updated` and rewrites every line holding it |
| `PropertiesEditor.AssignmentHasNoNewline` | src/main/kotlin/io/spinnaker/bumpdeps/NonDestructivePropertiesEditor.kt:29 | the written line holds no `\n` when neither the key nor the value holds a line terminator |
| `PropertiesEditor.SaveResult` | src/main/kotlin/io/spinnaker/bumpdeps/NonDestructivePropertiesEditor.kt:38-45 | the saved text is empty exactly for no lines, otherwise ends in `\n`, and is at least one character per line |
| `PropertiesEditor.SaveResultIsJoin` | src/main/kotlin/io/spinnaker/bumpdeps/NonDestructivePropertiesEditor.kt:38-45 | writing each line followed by `\n` is joining the lines and one final empty piece with `\n`: no header, no other separator |
| `PropertiesEditor.ParseSaved` | src/main/kotlin/io/spinnaker/bumpdeps/NonDestructivePropertiesEditor.kt:14 | reads saved text back as lines, splitting at `\n` only: no line it returns holds a `\n`, and empty text gives no lines; it inverts `SaveResult` by `SaveParseRoundTrip` |
| `PropertiesEditor.SaveParseRoundTrip` | src/main/kotlin/io/spinnaker/bumpdeps/NonDestructivePropertiesEditor.kt:38-45 | splitting the saved text at `\n` and dropping the empty piece after the final `\n` recovers the lines, when no line holds a `\n` |
| `BumpDeps.RefPrefix` | src/main/kotlin/io/spinnaker/bumpdeps/Main.kt:37 | `REF_PREFIX`, `refs/tags/v`: a ref must start with it, and the version is what follows (`ParseRef`) |
| `BumpDeps.DefaultBaseBranch` | src/main/kotlin/io/spinnaker/bumpdeps/Main.kt:41 | `BASE_BRANCH`, `master`: the target branch when `--base-branch` is absent (`ResolveBaseBranch`) |
| `BumpDeps.BranchPrefix` | src/main/kotlin/io/spinnaker/bumpdeps/Main.kt:105 | the `autobump-` that starts every branch name (`BranchName`) |
| `BumpDeps.TeamPrefix` | src/main/kotlin/io/spinnaker/bumpdeps/Main.kt:245 | `team:`, which marks a reviewer entry as a team (`ConvertReviewersArg`) |
| `BumpDeps.FallbackSleepSeconds` | src/main/kotlin/io/spinnaker/bumpdeps/Main.kt:121 | the ten-minute sleep when the artifact coordinates are not configured (`WaitPlanFor`) |
| `BumpDeps.RetryDelaySeconds` | src/main/kotlin/io/spinnaker/bumpdeps/Main.kt:138 | the 30 seconds between two polls of the POM (`WaitPlanFor`) |
| `BumpDeps.MaxTotalDelaySeconds` | src/main/kotlin/io/spinnaker/bumpdeps/Main.kt:139 | the ten minutes after which polling gives up (`WaitPlanFor`) |
| `BumpDeps.BumpError` | src/main/kotlin/io/spinnaker/bumpdeps/Main.kt:46 | the three failures the command raises itself: the invalid ref (line 46), the key not located (line 197) and the version already set (line 200); `Message` states their wording |
| `BumpDeps.Message` | src/main/kotlin/io/spinnaker/bumpdeps/Main.kt:196-201 | each failure's message carries its subject: the quoted ref (line 46), the key and repository not found, or the repository, key and the version already set |
| `BumpDeps.ParseRef` | src/main/kotlin/io/spinnaker/bumpdeps/Main.kt:44-49 | a ref is accepted iff it starts with `refs/tags/v`; the prefix followed by the version is the ref; a rejection carries the ref |
| `BumpDeps.ParseRefRoundTrip` | src/main/kotlin/io/spinnaker/bumpdeps/Main.kt:44-49 | every version, the empty one included, is recovered from `refs/tags/v` followed by it |
| `BumpDeps.RejectedRefMessage` | src/main/kotlin/io/spinnaker/bumpdeps/Main.kt:44-47 | a ref without the release prefix is refused, with a message that quotes it |
| `BumpDeps.ParseRefExamples` | src/main/kotlin/io/spinnaker/bumpdeps/Main.kt:37 | `refs/tags/v1.2.3` gives `1.2.3`, the bare prefix gives the empty version, and a branch ref is refused |
| `BumpDeps.BranchName` | src/main/kotlin/io/spinnaker/bumpdeps/Main.kt:105 | the branch starts with `autobump-`, ends with `-` and the base branch, and carries the key between the two |
| `BumpDeps.BranchNameInjective` | src/main/kotlin/io/spinnaker/bumpdeps/Main.kt:105 | for one base branch, distinct keys get distinct branch names, and so distinct pull-request labels |
| `BumpDeps.BranchNameAmbiguousAcrossBases` | src/main/kotlin/io/spinnaker/bumpdeps/Main.kt:105 | across base branches the name is ambiguous: key `a-b` on `c` and key `a` on `b-c` share a branch |
| `BumpDeps.ResolveBaseBranch` | src/main/kotlin/io/spinnaker/bumpdeps/Main.kt:68-69 | `--base-branch` with its default `master`; stated through `DefaultBranchName` |
| `BumpDeps.DefaultBranchName` | src/main/kotlin/io/spinnaker/bumpdeps/Main.kt:68-69 | without `--base-branch`, the branch is `autobump-<key>-master` |
| `BumpDeps.Reviewers` | src/main/kotlin/io/spinnaker/bumpdeps/Main.kt:241 | the `Reviewers` data class: the user names and the team names to request |
| `BumpDeps.NoReviewers` | src/main/kotlin/io/spinnaker/bumpdeps/Main.kt:66 | the `--reviewers` default `Reviewers()`, with both sets empty (`NoReviewersIsEmpty`) |
| `BumpDeps.ReviewerEntries` | src/main/kotlin/io/spinnaker/bumpdeps/Main.kt:244 | the entry set: pieces between commas, trimmed, empties dropped, duplicates merged; `ReviewerListRoundTrip` and `ReviewersPartition` state it |
| `BumpDeps.ConvertReviewersArg` | src/main/kotlin/io/spinnaker/bumpdeps/Main.kt:243-248 | users are exactly the entries not starting with `team:`; `t` is a team exactly when `team:` followed by `t` is an entry |
| `BumpDeps.ReviewersPartition` | src/main/kotlin/io/spinnaker/bumpdeps/Main.kt:244-247 | users and `team:`-prefixed teams partition the entries; no user is empty, carries surrounding whitespace, or starts with `team:` |
| `BumpDeps.ReviewerListRoundTrip` | src/main/kotlin/io/spinnaker/bumpdeps/Main.kt:244 | a comma-joined list of trimmed, non-empty names parses back to exactly those names |
| `BumpDeps.SingleTeamEntry` | src/main/kotlin/io/spinnaker/bumpdeps/Main.kt:245-247 | a lone `team:` entry requests exactly one team, named by everything after the first `team:` |
| `BumpDeps.TeamPrefixAlone` | src/main/kotlin/io/spinnaker/bumpdeps/Main.kt:243-247 | `team:` alone requests the team with the empty name |
| `BumpDeps.TeamPrefixTwice` | src/main/kotlin/io/spinnaker/bumpdeps/Main.kt:243-247 | only one prefix is removed: `team:team:x` requests the team `team:x` |
| `BumpDeps.NoReviewersIsEmpty` | src/main/kotlin/io/spinnaker/bumpdeps/Main.kt:241 | without `--reviewers` nobody is requested |
| `BumpDeps.RepoUrlOption` | src/main/kotlin/io/spinnaker/bumpdeps/Main.kt:76-77 | the repository URL option is absent iff not given; one trailing `/` is dropped, and a URL without one is kept |
| `BumpDeps.RepoUrlDropsOneSlash` | src/main/kotlin/io/spinnaker/bumpdeps/Main.kt:77 | only one slash goes: a URL ending in `//` keeps one |
| `BumpDeps.IsNullOrBlank` | src/main/kotlin/io/spinnaker/bumpdeps/Main.kt:120 | Kotlin `isNullOrBlank` on an optional string; for the repository URL `ConvertedRepoUrlBlank` states it on the raw option |
| `BumpDeps.PomUrl` | src/main/kotlin/io/spinnaker/bumpdeps/Main.kt:128 | the repository URL, `/`, and the POM path; its layout is `PomUrlLayout` |
| `BumpDeps.PomPath` | src/main/kotlin/io/spinnaker/bumpdeps/Main.kt:125-128 | `<group with dots as slashes>/<artifact>/<version>/<artifact>-<version>.pom`; its segments are `PomPathSegments` |
| `BumpDeps.PomUrlLayout` | src/main/kotlin/io/spinnaker/bumpdeps/Main.kt:125-128 | the POM URL is the repository URL, `/`, then the path whose segments are the group's dot-separated parts, the artifact, the version and `<artifact>-<version>.pom` |
| `BumpDeps.PomPathSegments` | src/main/kotlin/io/spinnaker/bumpdeps/Main.kt:125-128 | the POM path splits at `/` into the group's parts, the artifact, the version and the file name |
| `BumpDeps.PomPathIsJoin` | src/main/kotlin/io/spinnaker/bumpdeps/Main.kt:128 | the POM path is those segments joined with `/`, and no segment holds a `/` |
| `BumpDeps.GroupPath` | src/main/kotlin/io/spinnaker/bumpdeps/Main.kt:125 | replacing the group's dots by slashes joins its dot-separated parts with `/` |
| `BumpDeps.ConvertedRepoUrlBlank` | src/main/kotlin/io/spinnaker/bumpdeps/Main.kt:77 | the converted repository URL is null-or-blank exactly when the raw one is blank, or blank but for one trailing `/` |
| `BumpDeps.PomUrlLayoutWhenSlashFree` | src/main/kotlin/io/spinnaker/bumpdeps/Main.kt:128 | the POM URL starts with the repository URL and `/`, and splits into the POM path's segments when no part holds a `/` |
| `BumpDeps.WaitPlanFor` | src/main/kotlin/io/spinnaker/bumpdeps/Main.kt:119-139 | sleep ten minutes iff the raw repository URL is missing, blank, or blank but for one trailing `/`, or the group or artifact is missing or blank; otherwise poll a URL made of the converted repository URL, `/` and the POM path's segments, every 30 s for at most ten minutes, with credentials iff a user name or password is set |
| `BumpDeps.SlashOnlyRepoUrlFallsBack` | src/main/kotlin/io/spinnaker/bumpdeps/Main.kt:120 | a repository URL of a lone `/` is blank once converted, so the command sleeps instead of polling |
| `BumpDeps.UpdatePropertiesFile` | src/main/kotlin/io/spinnaker/bumpdeps/Main.kt:192-204 | "couldn't locate" iff no line holds the key; "already set" iff the effective value is the version; the edited lines are saved iff the effective value exists and differs |
| `BumpDeps.RefusalMessage` | src/main/kotlin/io/spinnaker/bumpdeps/Main.kt:196-201 | a refused save names the key and repository it could not locate, or ends with the version already set |
| `BumpDeps.SavedFileIsAlreadySet` | src/main/kotlin/io/spinnaker/bumpdeps/Main.kt:192-204 | after a save, reading the saved text back and editing it for the same trimmed key and version is refused as "already set" |
| `BumpDeps.RunRepositories` | src/main/kotlin/io/spinnaker/bumpdeps/Main.kt:102-116 | every repository is attempted in order, whatever happened before, and the exit status is 1 iff some attempt threw, 0 otherwise |
| `EditorScenarios.ParsesLines` | src/test/kotlin/io/spinnaker/bumpdeps/NonDestructivePropertiesEditorTest.kt:18-29 | a comment and an assignment already holding the value: found, nothing changes |
| `EditorScenarios.IgnoresWhitespace` | src/test/kotlin/io/spinnaker/bumpdeps/NonDestructivePropertiesEditorTest.kt:31-41 | blanks around the key, the `=` and the value do not make a line stale |
| `EditorScenarios.IgnoresCommentedOutValue` | src/test/kotlin/io/spinnaker/bumpdeps/NonDestructivePropertiesEditorTest.kt:43-53 | a commented-out assignment is not found and is kept |
| `EditorScenarios.UpdatesValue` | src/test/kotlin/io/spinnaker/bumpdeps/NonDestructivePropertiesEditorTest.kt:55-68 | a stale assignment is rewritten, with both flags set |
| `EditorScenarios.UpdatedValueTrimsWhitespace` | src/test/kotlin/io/spinnaker/bumpdeps/NonDestructivePropertiesEditorTest.kt:70-83 | a stale padded assignment is rewritten without its padding |
| `EditorScenarios.LastValueDeterminesUpdated` | src/test/kotlin/io/spinnaker/bumpdeps/NonDestructivePropertiesEditorTest.kt:85-100 | an earlier line already holding the value is kept; the later stale one is rewritten and sets `updated` |
| `EditorScenarios.NotUpdatedWhenLastAlreadyHoldsValue` | src/test/kotlin/io/spinnaker/bumpdeps/NonDestructivePropertiesEditorTest.kt:102-117 | an earlier stale line is rewritten, yet `updated` stays false because the last line already holds the value |
| `EditorScenarios.ReadsStoredFile` | src/test/kotlin/io/spinnaker/bumpdeps/NonDestructivePropertiesEditorTest.kt:119-135 | a stored file (comment, date, assignment) already holding the value is found and left alone |
| `EditorScenarios.WritesStoredFile` | src/test/kotlin/io/spinnaker/bumpdeps/NonDestructivePropertiesEditorTest.kt:137-155 | a stored file holding a stale value has exactly its third line rewritten |
| `EditorScenarios.StoredFileReadsBack` | src/test/kotlin/io/spinnaker/bumpdeps/NonDestructivePropertiesEditorTest.kt:157-164 | the rewritten stored file, saved and read back, gives the same lines, whose effective value for the key is the new value |
| `EditorScenarios.ParsesLinesExample` | src/test/kotlin/io/spinnaker/bumpdeps/NonDestructivePropertiesEditorTest.kt:22-28 | the test's own lines `#comment`, `foo=bar` with value `bar`: found, unchanged |
| `EditorScenarios.IgnoresWhitespaceExample` | src/test/kotlin/io/spinnaker/bumpdeps/NonDestructivePropertiesEditorTest.kt:35-40 | `  foo  =  bar  ` with value `bar`: found, unchanged |
| `EditorScenarios.IgnoresCommentedOutValueExample` | src/test/kotlin/io/spinnaker/bumpdeps/NonDestructivePropertiesEditorTest.kt:47-52 | `#foo=bar` with value `bar`: not found, unchanged |
| `EditorScenarios.UpdatesValueExample` | src/test/kotlin/io/spinnaker/bumpdeps/NonDestructivePropertiesEditorTest.kt:59-67 | `foo=baz` with value `bar` becomes `foo=bar`, both flags set |
| `EditorScenarios.UpdatedValueTrimsWhitespaceExample` | src/test/kotlin/io/spinnaker/bumpdeps/NonDestructivePropertiesEditorTest.kt:74-82 | `   foo  =    baz   ` with value `bar` becomes `foo=bar`, both flags set |
| `EditorScenarios.LastValueDeterminesUpdatedExample` | src/test/kotlin/io/spinnaker/bumpdeps/NonDestructivePropertiesEditorTest.kt:89-99 | the padded `bar` line is kept and `foo=baz` becomes `foo=bar`, both flags set |
| `EditorScenarios.NotUpdatedWhenLastAlreadyHoldsValueExample` | src/test/kotlin/io/spinnaker/bumpdeps/NonDestructivePropertiesEditorTest.kt:106-116 | with value `baz` both lines become `foo=baz`; found, not updated |
| `EditorScenarios.ReadsStoredFileExample` | src/test/kotlin/io/spinnaker/bumpdeps/NonDestructivePropertiesEditorTest.kt:124-134 | the stored file for `foo=bar` with comment `the comments`, any date line: found, unchanged |
| `EditorScenarios.WritesStoredFileExample` | src/test/kotlin/io/spinnaker/bumpdeps/NonDestructivePropertiesEditorTest.kt:143-163 | the stored file for `foo=baz` edited to `bar`: third line becomes `foo=bar`, both flags set, and read back the key's value is `bar` |
| `EditorScenarios.HashKeyFindsCommentLine` | src/main/kotlin/io/spinnaker/bumpdeps/NonDestructivePropertiesEditor.kt:18 | a key that itself starts with `#` is found on a line that reads as a comment |
| `EditorScenarios.PaddedKeySecondEditFindsNothing` | src/main/kotlin/io/spinnaker/bumpdeps/NonDestructivePropertiesEditor.kt:17-34 | with a key ending in a no-break-space-like blank, the first edit rewrites the stale line, and editing the result again finds no line holding the key |

## Behaviour at the edges

Each of these follows from the code, and each has a lemma.

- **Editing the output again keeps `matched`.** For a key and a value that
  equal their trims, with no line terminator in the value, a second edit of
  the editor's own output changes no line and reports `updated = false`. It
  reports the first edit's `matched`, so `matched` is false when the key
  was never there (`PropertiesEditor.Idempotent`).
- **Settling needs trimmed inputs.**
  - A value with whitespace at either end never equals a trimmed
    `current`. Every edit that finds the key rewrites every line holding it
    and reports `updated` (`UntrimmedValueNeverSettles`).
  - The written line carries the key as given, untrimmed. A key ending in a
    character that `trim` strips but `\s` does not match (U+00A0, for one)
    writes a line that its own pattern does not match
    (`PaddedKeySecondEditFindsNothing`).
- **A `#` line matches a key that starts with `#`.** The pattern quotes the
  key literally, so a line that reads as a comment holds such a key
  (`HashKeyFindsCommentLine`). For every other key, a `#` line never matches
  (`CommentNeverMatches`).
- **A line terminator after the `=` stops the match.** `.` does not match a
  line terminator, and `matches()` must consume the whole line. U+0085 can
  occur inside a line that `readAllLines` returns from an ISO-8859-1 file,
  and such a line does not match (`LineTerminatorInValueDoesNotMatch`).

## Left out

- **Reading and writing files.** `Files.readAllLines`, `FileWriter` and the
  ISO-8859-1 charset are out, including the replacement of characters the
  charset cannot encode. The editor works on the list of lines, and the
  serialiser returns the text it would write.
- `PropertiesEditor.ParseSaved`: splits at `\n` only. `Files.readAllLines`
  also ends a line at `\r` and at `\r\n`, so `ParseSaved("a\rb\n")` is
  `["a\rb"]` where the source's reader returns `["a", "b"]`, and the model
  does not promise that no returned line holds a `\r`. It agrees with the
  source's reader on text without `\r`. The editor itself takes its lines
  as given.
- `PropertiesEditor.SaveParseRoundTrip`: reads back by splitting at `\n`
  only. `Files.readAllLines` also ends a line at `\r`, so the read-back
  agrees with the source's reader only for lines without `\r`.
- `BumpDeps.SavedFileIsAlreadySet`: holds for the text `SaveResult`
  returns. `FileWriter` with ISO-8859-1 writes a key or version character
  above U+00FF as `?`, so for such a version the file on disk would not read
  back as "already set". Each run of the command also clones the base branch
  afresh, so a second run of the command does not read this saved file.
- **Git, the hosting API and HTTP.** Cloning, branch deletion, commit and
  force-push, pull-request lookup, creation, labels and reviewer requests,
  and the HTTP request are outside the model. In `RunRepositories` they are
  one oracle: whether the attempt for the `i`-th repository threw.
- `BumpDeps.WaitPlanFor`: returns the plan (sleep, or poll this URL with
  these delays). It does not model the polling loop, the clock or the
  "giving up" exception after ten minutes, because those depend on time and
  the network.
- **Environment and option parsing.** Environment variables enter as
  parameters. The clikt option parsing, the required-option errors, logging,
  the temporary directory and its shutdown hook are left out.
- **What a configuration error does to the process.** A rejected `--ref`
  is a `Failure` value. How clikt reports it and sets the exit status is
  not modelled.
- **The rest of the `.properties` format.** The model follows the editor's
  pattern, not `java.util.Properties`. `:` separators, `!` comments,
  escapes and continuation lines play no part in the source's matching, so
  the model leaves them out too.
- **UTF-16.** Strings are sequences of Dafny `char`s, so surrogate pairs
  are not modelled. Every whitespace and line-terminator character the
  source tests lies in the Basic Multilingual Plane.
- `build.gradle.kts` is not part of this model.

=== FILE: bump_deps.dfy ===
/** The pure decisions of the `BumpDeps` command: turning the release ref into
    a version, parsing the reviewer list, naming the branch, deciding between
    polling the artifact's POM and sleeping, gating the save of the edited
    `gradle.properties`, and folding the per-repository attempts into the exit
    status. Cloning, pushing, the hosting API, HTTP and sleeping are outside. */
module BumpDeps {
  import opened Wrappers
  import opened Text
  import opened PropertiesEditor

  /** A release ref must carry this prefix; the rest is the version. */
  const RefPrefix := "refs/tags/v"
  /** The branch pull requests target when none is given. */
  const DefaultBaseBranch := "master"
  /** A reviewer entry with this prefix names a team. */
  const TeamPrefix := "team:"
  /** Every branch this tool pushes starts with this. */
  const BranchPrefix := "autobump-"
  /** The wait used when no artifact coordinates are configured: ten minutes. */
  const FallbackSleepSeconds := 600
  /** The pause between two polls of the POM. */
  const RetryDelaySeconds := 30
  /** The longest the POM is polled for: ten minutes. */
  const MaxTotalDelaySeconds := 600

  /** The failures the command raises itself. */
  datatype BumpError =
    | InvalidRef(ref: string)
    | KeyNotFound(key: string, repoName: string)
    | AlreadySet(repoName: string, key: string, version: string)

  /** The message each failure carries: it quotes the offending ref, names
      the key it could not locate, or ends with the version already set. */
  function Message(e: BumpError): (m: string)
    ensures e.InvalidRef? ==> StartsWith(m, "Ref '" + e.ref + "'")
    ensures e.KeyNotFound? ==> StartsWith(m, "Couldn't locate key " + e.key + " in " + e.repoName)
    ensures e.AlreadySet? ==>
      StartsWith(m, e.repoName + "'s " + e.key) && EndsWith(m, " is already set to " + e.version)
  {
    match e
    case InvalidRef(ref) =>
      var head := "Ref '" + ref + "'";
      var m := head + " is not a valid release ref";
      assert m[..|head|] == head;
      m
    case KeyNotFound(key, repoName) =>
      var head := "Couldn't locate key " + key + " in " + repoName;
      var m := head + "'s gradle.properties file";
      assert m[..|head|] == head;
      m
    case AlreadySet(repoName, key, version) =>
      var head := repoName + "'s " + key;
      var tail := " is already set to " + version;
      var m := head + tail;
      assert m[..|head|] == head && m[|m| - |tail|..] == tail;
      m
  }

  /** The `--ref` conversion: a ref without the release prefix is rejected,
      otherwise the version is what follows the prefix. */
  function ParseRef(ref: string): (r: Result<string, BumpError>)
    ensures r.Success? <==> StartsWith(ref, RefPrefix)
    ensures r.Success? ==> RefPrefix + r.value == ref
    ensures r.Failure? ==> r.error == InvalidRef(ref)
  {
    if !StartsWith(ref, RefPrefix) then Failure(InvalidRef(ref))
    else Success(RemovePrefix(ref, RefPrefix))
  }

  /** A rejected ref is reported with a message that quotes it. */
  lemma RejectedRefMessage(ref: string)
    requires !StartsWith(ref, RefPrefix)
    ensures ParseRef(ref).Failure?
    ensures StartsWith(Message(ParseRef(ref).error), "Ref '" + ref + "'")
  {
  }

  /** Every version is recovered from the ref built from it, including the
      empty version of the bare prefix. */
  lemma ParseRefRoundTrip(version: string)
    ensures ParseRef(RefPrefix + version) == Success(version)
  {
    assert (RefPrefix + version)[..|RefPrefix|] == RefPrefix;
  }

  /** A tag ref gives its version, the bare prefix gives the empty version,
      and a ref outside `refs/tags/v` is refused. */
  lemma ParseRefExamples()
    ensures ParseRef("refs/tags/v1.2.3") == Success("1.2.3")
    ensures ParseRef("refs/tags/v") == Success("")
    ensures ParseRef("refs/heads/master") == Failure(InvalidRef("refs/heads/master"))
  {
    ParseRefRoundTrip("1.2.3");
    assert RefPrefix + "1.2.3" == "refs/tags/v1.2.3";
    ParseRefRoundTrip("");
    assert RefPrefix + "" == "refs/tags/v";
    assert "refs/heads/master"[|RefPrefix| - 1] != RefPrefix[|RefPrefix| - 1];
  }

  /** The `--base-branch` option with its default. */
  function ResolveBaseBranch(option: Option<string>): string
  {
    option.GetOr(DefaultBaseBranch)
  }

  /** The branch a repository's change is pushed to, `autobump-<key>-<base>`:
      it starts with the fixed prefix, ends with `-<base>`, and the key can be
      read back from between the two. */
  function BranchName(key: string, baseBranch: string): (b: string)
    ensures StartsWith(b, BranchPrefix)
    ensures EndsWith(b, "-" + baseBranch)
    ensures |b| == |BranchPrefix| + |key| + 1 + |baseBranch|
    ensures b[|BranchPrefix|..|BranchPrefix| + |key|] == key
  {
    var b := BranchPrefix + key + "-" + baseBranch;
    assert b[|BranchPrefix|..|BranchPrefix| + |key|] == key;
    assert b[|b| - |"-" + baseBranch|..] == "-" + baseBranch;
    b
  }

  /** For one base branch, distinct keys get distinct branches (and so
      distinct pull-request labels). */
  lemma BranchNameInjective(key1: string, key2: string, baseBranch: string)
    requires BranchName(key1, baseBranch) == BranchName(key2, baseBranch)
    ensures key1 == key2
  {
  }

  /** Without the default base branch the pair is not recoverable: two keys
      with two base branches can share one branch name. */
  lemma BranchNameAmbiguousAcrossBases()
    ensures BranchName("a-b", "c") == BranchName("a", "b-c")
  {
  }

  /** With no `--base-branch`, the branch ends in `-master`. */
  lemma DefaultBranchName(key: string)
    ensures BranchName(key, ResolveBaseBranch(None)) == BranchPrefix + key + "-master"
  {
  }

  /** The reviewers requested on a new pull request. */
  datatype Reviewers = Reviewers(users: set<string>, teams: set<string>)

  /** The `--reviewers` default: nobody. */
  const NoReviewers := Reviewers({}, {})

  /** The entries of a reviewer list: the comma-separated pieces, trimmed, the
      empty ones dropped, duplicates merged. */
  function ReviewerEntries(s: string): set<string>
  {
    set p | p in Split(s, ',') && Trim(p) != "" :: Trim(p)
  }

  /** `convertReviewersArg`: entries starting with `team:` are teams, named by
      what follows one `team:`; every other entry is a user. */
  function ConvertReviewersArg(s: string): (r: Reviewers)
    ensures forall u :: u in r.users <==> u in ReviewerEntries(s) && !StartsWith(u, TeamPrefix)
    ensures forall t :: t in r.teams <==> TeamPrefix + t in ReviewerEntries(s)
  {
    var entries := ReviewerEntries(s);
    var teams := set e | e in entries && StartsWith(e, TeamPrefix);
    var r := Reviewers(entries - teams, set e | e in teams :: RemovePrefix(e, TeamPrefix));
    assert forall t :: TeamPrefix + t in entries ==> (TeamPrefix + t)[..|TeamPrefix|] == TeamPrefix;
    assert forall t :: TeamPrefix + t in entries ==> RemovePrefix(TeamPrefix + t, TeamPrefix) == t;
    r
  }

  /** The users and the `team:`-prefixed teams split the entries between them
      with no overlap; no user is empty, carries surrounding whitespace, or
      starts with `team:`. */
  lemma ReviewersPartition(s: string)
    ensures var r, entries := ConvertReviewersArg(s), ReviewerEntries(s);
      var teamEntries := set t | t in r.teams :: TeamPrefix + t;
      && entries == r.users + teamEntries
      && r.users !! teamEntries
      && forall u :: u in r.users ==> u != "" && u == Trim(u) && !StartsWith(u, TeamPrefix)
  {
    var r, entries := ConvertReviewersArg(s), ReviewerEntries(s);
    var teamEntries := set t | t in r.teams :: TeamPrefix + t;
    forall e | e in entries
      ensures e in r.users || e in teamEntries
    {
      if StartsWith(e, TeamPrefix) {
        var t := e[|TeamPrefix|..];
        assert TeamPrefix + t == e;
        assert t in r.teams;
      }
    }
    forall u | u in r.users
      ensures u != "" && u == Trim(u)
    {
      var p :| p in Split(s, ',') && Trim(p) != "" && Trim(p) == u;
      TrimIdempotent(p);
    }
    forall e | e in teamEntries
      ensures e in entries && e !in r.users
    {
      var t :| t in r.teams && e == TeamPrefix + t;
      assert e[..|TeamPrefix|] == TeamPrefix;
    }
  }

  /** Parsing a list written as comma-separated, trimmed, non-empty names
      recovers exactly those names. */
  lemma ReviewerListRoundTrip(names: seq<string>)
    requires forall i :: 0 <= i < |names| ==> names[i] != "" && Trim(names[i]) == names[i] && ',' !in names[i]
    ensures forall x :: x in ReviewerEntries(Join(names, ',')) <==> x in names
  {
    if |names| == 0 {
      assert Split("", ',') == [""];
      assert Trim("") == "";
    } else {
      SplitJoin(names, ',');
      assert Split(Join(names, ','), ',') == names;
      forall x | x in ReviewerEntries(Join(names, ','))
        ensures x in names
      {
        var p :| p in names && Trim(p) != "" && Trim(p) == x;
      }
      forall x | x in names
        ensures x in ReviewerEntries(Join(names, ','))
      {
      }
    }
  }

  /** A lone `team:` entry names a team by everything after its first
      `team:`: `team:` alone requests the team with the empty name, and
      `team:team:x` the team `team:x`. */
  lemma SingleTeamEntry(t: string)
    requires ',' !in t
    requires t == [] || !IsTrimWs(t[|t| - 1])
    ensures ConvertReviewersArg(TeamPrefix + t) == Reviewers({}, {t})
  {
    var e := TeamPrefix + t;
    assert e[0] == 't' && e[|e| - 1] == (if t == [] then ':' else t[|t| - 1]);
    TrimOfTrimmed(e);
    forall i | 0 <= i < |e|
      ensures e[i] != ','
    {
      if i >= |TeamPrefix| {
        assert e[i] == t[i - |TeamPrefix|];
      }
    }
    SplitNoSep(e, ',');
    assert ReviewerEntries(e) == {e};
    var r := ConvertReviewersArg(e);
    assert e[..|TeamPrefix|] == TeamPrefix;
    assert r.users == {};
    forall x | x in r.teams
      ensures x == t
    {
      assert TeamPrefix + x == e;
      assert x == e[|TeamPrefix|..];
    }
    assert t in r.teams;
  }

  /** `team:` alone requests the team with the empty name. */
  lemma TeamPrefixAlone()
    ensures ConvertReviewersArg("team:") == Reviewers({}, {""})
  {
    assert TeamPrefix + "" == "team:";
    SingleTeamEntry("");
  }

  /** Only one `team:` is removed: `team:team:x` requests the team `team:x`. */
  lemma TeamPrefixTwice()
    ensures ConvertReviewersArg("team:team:x") == Reviewers({}, {"team:x"})
  {
    assert TeamPrefix + "team:x" == "team:team:x";
    assert !IsTrimWs('x');
    SingleTeamEntry("team:x");
  }

  /** Without `--reviewers` nobody is requested. */
  lemma NoReviewersIsEmpty()
    ensures NoReviewers.users == {} && NoReviewers.teams == {}
  {
  }

  /** The `--maven-repository-url` conversion: one trailing `/` is dropped. */
  function RepoUrlOption(raw: Option<string>): (r: Option<string>)
    ensures r.None? <==> raw.None?
    ensures raw.Some? ==> (if EndsWith(raw.value, "/") then r.value + "/" == raw.value else r.value == raw.value)
  {
    match raw
    case None => None
    case Some(u) => Some(RemoveSuffix(u, "/"))
  }

  /** Only ever one slash goes: a URL ending in `//` keeps one. */
  lemma RepoUrlDropsOneSlash(u: string)
    ensures RepoUrlOption(Some(u + "//")) == Some(u + "/")
  {
    assert (u + "//")[..|u + "//"| - 1] == u + "/";
  }

  /** Kotlin `isNullOrBlank`. */
  predicate IsNullOrBlank(o: Option<string>) {
    o.None? || IsBlank(o.value)
  }

  /** The Maven-layout URL of the artifact's POM. */
  function PomUrl(repoUrl: string, groupId: string, artifactId: string, version: string): string
  {
    repoUrl + "/" + PomPath(groupId, artifactId, version)
  }

  /** The POM URL is the repository URL, a `/`, and then the path whose
      segments are the dot-separated parts of the group, the artifact, the
      version and the file `<artifact>-<version>.pom`. */
  lemma PomUrlLayout(repoUrl: string, groupId: string, artifactId: string, version: string)
    requires '/' !in groupId && '/' !in artifactId && '/' !in version
    ensures var url := PomUrl(repoUrl, groupId, artifactId, version);
      && StartsWith(url, repoUrl + "/")
      && Split(url[|repoUrl| + 1..], '/')
         == Split(groupId, '.') + [artifactId, version, PomFileName(artifactId, version)]
  {
    var path := PomPath(groupId, artifactId, version);
    var url := PomUrl(repoUrl, groupId, artifactId, version);
    assert url[..|repoUrl| + 1] == repoUrl + "/";
    assert url[|repoUrl| + 1..] == path;
    PomPathSegments(groupId, artifactId, version);
  }

  /** The segments of the POM path. */
  lemma PomPathSegments(groupId: string, artifactId: string, version: string)
    requires '/' !in groupId && '/' !in artifactId && '/' !in version
    ensures Split(PomPath(groupId, artifactId, version), '/')
         == Split(groupId, '.') + [artifactId, version, PomFileName(artifactId, version)]
  {
    var parts := Split(groupId, '.') + [artifactId, version, PomFileName(artifactId, version)];
    PomPathIsJoin(groupId, artifactId, version);
    SplitJoin(parts, '/');
  }

  /** The part of the POM URL after the repository URL and its `/`:
      `<group with dots as slashes>/<artifact>/<version>/<artifact>-<version>.pom`. */
  function PomPath(groupId: string, artifactId: string, version: string): string
  {
    ReplaceChar(groupId, '.', '/') + "/" + (artifactId + "/" + (version + "/" + PomFileName(artifactId, version)))
  }

  /** The POM's file name, `<artifact>-<version>.pom`. */
  function PomFileName(artifactId: string, version: string): string
  {
    artifactId + "-" + version + ".pom"
  }

  /** The POM path is its segments joined with `/`, none of which holds a `/`. */
  lemma PomPathIsJoin(groupId: string, artifactId: string, version: string)
    requires '/' !in groupId && '/' !in artifactId && '/' !in version
    ensures var parts := Split(groupId, '.') + [artifactId, version, PomFileName(artifactId, version)];
      && PomPath(groupId, artifactId, version) == Join(parts, '/')
      && forall i :: 0 <= i < |parts| ==> '/' !in parts[i]
  {
    var groupParts := Split(groupId, '.');
    var file := PomFileName(artifactId, version);
    var tail := [artifactId, version, file];
    GroupPath(groupId);
    assert tail[1..] == [version, file];
    assert tail[1..][1..] == [file];
    assert Join([version, file], '/') == version + "/" + file;
    assert Join(tail, '/') == artifactId + "/" + (version + "/" + file);
    JoinAppend(groupParts, tail, '/');
    assert '/' !in file;
    var parts := groupParts + tail;
    forall i | 0 <= i < |parts|
      ensures '/' !in parts[i]
    {
      if i >= |groupParts| {
        assert parts[i] == tail[i - |groupParts|];
      }
    }
  }

  /** The group's dots become slashes: its path is its dot-separated parts
      joined with `/`, and no part holds a `/`. */
  lemma GroupPath(groupId: string)
    requires '/' !in groupId
    ensures ReplaceChar(groupId, '.', '/') == Join(Split(groupId, '.'), '/')
    ensures forall i :: 0 <= i < |Split(groupId, '.')| ==> '/' !in Split(groupId, '.')[i]
  {
    var groupParts := Split(groupId, '.');
    forall i | 0 <= i < |groupParts|
      ensures '/' !in groupParts[i]
    {
      JoinContains(groupParts, '.', i);
    }
    ReplaceInJoin(groupParts, '.', '/');
  }

  /** Every character of a piece occurs in the joined string. */
  lemma {:induction false} JoinContains(parts: seq<string>, sep: char, i: nat)
    requires i < |parts|
    ensures forall c :: c in parts[i] ==> c in Join(parts, sep)
    decreases |parts|
  {
    if i > 0 {
      JoinContains(parts[1..], sep, i - 1);
    }
  }

  /** How the command waits for the released artifact before touching any
      repository. */
  datatype WaitPlan =
    | SleepFor(seconds: nat)
    | Poll(url: string, withCredentials: bool, retrySeconds: nat, maxTotalSeconds: nat)

  /** The converted repository URL is blank exactly when the raw one is
      blank, or is blank but for one trailing `/`. */
  lemma ConvertedRepoUrlBlank(raw: string)
    ensures IsNullOrBlank(RepoUrlOption(Some(raw)))
        <==> IsBlank(raw) || (EndsWith(raw, "/") && IsBlank(raw[..|raw| - 1]))
  {
    if EndsWith(raw, "/") {
      var u := raw[..|raw| - 1];
      assert raw[|raw| - 1] == '/' && !IsTrimWs('/');
      assert RepoUrlOption(Some(raw)) == Some(u);
      assert !IsBlank(raw);
    }
  }

  /** `waitForArtifact`'s decision: when the repository URL (after its
      conversion), the group or the artifact is missing or blank, sleep the
      fallback ten minutes; otherwise poll the POM, every 30 seconds for at
      most ten minutes, sending basic credentials when a user name or
      password is set. The fallback is stated on the raw option, and the
      polled URL by its segments. */
  function WaitPlanFor(rawRepoUrl: Option<string>, groupId: Option<string>, artifactId: Option<string>,
                       version: string, username: string, password: string): (p: WaitPlan)
    ensures p.SleepFor? <==>
      || rawRepoUrl.None?
      || IsBlank(rawRepoUrl.value)
      || (EndsWith(rawRepoUrl.value, "/") && IsBlank(rawRepoUrl.value[..|rawRepoUrl.value| - 1]))
      || IsNullOrBlank(groupId) || IsNullOrBlank(artifactId)
    ensures p.SleepFor? ==> p.seconds == FallbackSleepSeconds
    ensures p.Poll? ==>
      var repoUrl := RepoUrlOption(rawRepoUrl).value;
      && StartsWith(p.url, repoUrl + "/")
      && ('/' !in groupId.value && '/' !in artifactId.value && '/' !in version ==>
            Split(p.url[|repoUrl| + 1..], '/')
            == Split(groupId.value, '.') + [artifactId.value, version, PomFileName(artifactId.value, version)])
      && (p.withCredentials <==> username != "" || password != "")
      && p.retrySeconds == RetryDelaySeconds
      && p.maxTotalSeconds == MaxTotalDelaySeconds
  {
    var repoUrl := RepoUrlOption(rawRepoUrl);
    assert rawRepoUrl.Some? ==>
      (IsNullOrBlank(repoUrl) <==>
        IsBlank(rawRepoUrl.value) || (EndsWith(rawRepoUrl.value, "/") && IsBlank(rawRepoUrl.value[..|rawRepoUrl.value| - 1])))
    by {
      if rawRepoUrl.Some? {
        ConvertedRepoUrlBlank(rawRepoUrl.value);
      }
    }
    if IsNullOrBlank(repoUrl) || IsNullOrBlank(groupId) || IsNullOrBlank(artifactId) then
      SleepFor(FallbackSleepSeconds)
    else
      PomUrlLayoutWhenSlashFree(repoUrl.value, groupId.value, artifactId.value, version);
      Poll(PomUrl(repoUrl.value, groupId.value, artifactId.value, version),
           username != "" || password != "", RetryDelaySeconds, MaxTotalDelaySeconds)
  }

  /** `PomUrlLayout` with its segment statement conditional on the parts being
      free of `/`. */
  lemma PomUrlLayoutWhenSlashFree(repoUrl: string, groupId: string, artifactId: string, version: string)
    ensures var url := PomUrl(repoUrl, groupId, artifactId, version);
      && StartsWith(url, repoUrl + "/")
      && ('/' !in groupId && '/' !in artifactId && '/' !in version ==>
            Split(url[|repoUrl| + 1..], '/')
            == Split(groupId, '.') + [artifactId, version, PomFileName(artifactId, version)])
  {
    var url := PomUrl(repoUrl, groupId, artifactId, version);
    assert url[..|repoUrl| + 1] == repoUrl + "/";
    if '/' !in groupId && '/' !in artifactId && '/' !in version {
      PomUrlLayout(repoUrl, groupId, artifactId, version);
    }
  }

  /** A repository URL of a lone `/` is blank once converted, so the command
      falls back to sleeping. */
  lemma SlashOnlyRepoUrlFallsBack(groupId: string, artifactId: string, version: string, username: string, password: string)
    ensures WaitPlanFor(Some("/"), Some(groupId), Some(artifactId), version, username, password).SleepFor?
  {
    assert RepoUrlOption(Some("/")) == Some("");
  }

  /** `updatePropertiesFile`: edit the lines, refuse with "couldn't locate"
      when no line holds the key (checked first), refuse with "already set"
      when the effective value is already the version, and otherwise return
      the text to save. */
  function UpdatePropertiesFile(fileLines: seq<string>, key: string, version: string, repoName: string)
    : (r: Result<string, BumpError>)
    ensures r == Failure(KeyNotFound(key, repoName)) <==>
      forall i :: 0 <= i < |fileLines| ==> Current(key)(fileLines[i]).None?
    ensures r == Failure(AlreadySet(repoName, key, version)) <==>
      LastCurrent(Current(key), fileLines) == Some(version)
    ensures r.Success? <==>
      (LastCurrent(Current(key), fileLines).Some? && LastCurrent(Current(key), fileLines).value != version)
    ensures r.Success? ==> r.value == SaveResult(UpdateProperty(fileLines, key, version).lines)
  {
    var result := UpdateProperty(fileLines, key, version);
    UpdatePropertySpec(fileLines, key, version);
    if !result.matched then Failure(KeyNotFound(key, repoName))
    else if !result.updated then Failure(AlreadySet(repoName, key, version))
    else Success(SaveResult(result.lines))
  }

  /** A refusal of the save gate names what it refused: the key and
      repository it could not locate, or the version already set. */
  lemma RefusalMessage(fileLines: seq<string>, key: string, version: string, repoName: string)
    ensures var r := UpdatePropertiesFile(fileLines, key, version, repoName);
      r.Failure? ==> var m := Message(r.error);
      && ((forall i :: 0 <= i < |fileLines| ==> Current(key)(fileLines[i]).None?) ==>
            StartsWith(m, "Couldn't locate key " + key + " in " + repoName))
      && (LastCurrent(Current(key), fileLines) == Some(version) ==>
            EndsWith(m, " is already set to " + version))
  {
  }

  /** Editing the saved file again: once the edited lines have been saved,
      reading the saved text back and editing it for the same key and version
      is refused as "already set". */
  lemma SavedFileIsAlreadySet(fileLines: seq<string>, key: string, version: string, repoName: string)
    requires key == Trim(key) && NoLineTerm(key)
    requires version == Trim(version) && NoLineTerm(version)
    requires forall i :: 0 <= i < |fileLines| ==> '\n' !in fileLines[i]
    requires UpdatePropertiesFile(fileLines, key, version, repoName).Success?
    ensures UpdatePropertiesFile(ParseSaved(UpdatePropertiesFile(fileLines, key, version, repoName).value),
                                 key, version, repoName)
         == Failure(AlreadySet(repoName, key, version))
  {
    var once := UpdateProperty(fileLines, key, version);
    EditWritesOnlyAssignment(Current(key), key, version, fileLines);
    forall i | 0 <= i < |once.lines|
      ensures '\n' !in once.lines[i]
    {
      if once.lines[i] != fileLines[i] {
        AssignmentHasNoNewline(key, version);
      }
    }
    SaveParseRoundTrip(once.lines);
    Idempotent(fileLines, key, version);
    var twice := UpdateProperty(once.lines, key, version);
    assert once.matched && !twice.updated && twice.matched;
  }

  /** The loop over the repositories. `attemptThrows(i, name)` stands for
      whether cloning, editing, pushing or opening the pull request for the
      `i`-th repository raised an exception. Every repository is attempted, in
      order, whatever happened to the earlier ones, and the exit status is 1
      exactly when some attempt threw. */
  method RunRepositories(repos: seq<string>, attemptThrows: (nat, string) -> bool)
    returns (attempted: seq<string>, exitCode: int)
    ensures attempted == repos
    ensures exitCode == 1 <==> exists i :: 0 <= i < |repos| && attemptThrows(i, repos[i])
    ensures exitCode == 0 <==> forall i :: 0 <= i < |repos| ==> !attemptThrows(i, repos[i])
  {
    var failures := false;
    attempted := [];
    for i := 0 to |repos|
      invariant attempted == repos[..i]
      invariant failures <==> exists j :: 0 <= j < i && attemptThrows(j, repos[j])
    {
      attempted := attempted + [repos[i]];
      if attemptThrows(i, repos[i]) {
        failures := true;
      }
    }
    assert repos[..|repos|] == repos;
    exitCode := if failures then 1 else 0;
  }
}

=== FILE: editor_scenarios.dfy ===
/** The editor's documented cases, replayed on the model. Each case is stated
    for every key and value of the shape the case uses (`foo`, `bar` and `baz`
    in the unit tests are instances): a key and values that `trim` leaves
    alone and that hold no line terminator, blanks made of spaces and tabs,
    and any text after the `#` of a comment, including the date line that
    `java.util.Properties.store` writes. */
module EditorScenarios {
  import opened Wrappers
  import opened Text
  import opened PropertyLine
  import opened PropertiesEditor

  /** A key or value as the cases use them. */
  predicate Plain(s: string) {
    s == Trim(s) && NoLineTerm(s)
  }

  /** Blanks as the cases use them: spaces and tabs only. */
  predicate Blanks(w: string) {
    forall i :: 0 <= i < |w| ==> w[i] == ' ' || w[i] == '\t'
  }

  /** The line `w1 key w2 = w3 value w4`. */
  function Padded(key: string, value: string, w1: string, w2: string, w3: string, w4: string): string
  {
    w1 + key + w2 + "=" + w3 + value + w4
  }

  /** A line of the cases with blanks around its parts holds the key, with the
      bare value as `current`. */
  lemma CurrentOfPadded(key: string, value: string, w1: string, w2: string, w3: string, w4: string)
    requires Plain(key) && Plain(value)
    requires Blanks(w1) && Blanks(w2) && Blanks(w3) && Blanks(w4)
    ensures Current(key)(Padded(key, value, w1, w2, w3, w4)) == Some(value)
  {
    assert IsBlank(w3) && IsBlank(w4);
    var rest := w3 + value + w4;
    forall i | 0 <= i < |rest|
      ensures !IsLineTerm(rest[i])
    {
      if i < |w3| {
        assert rest[i] == w3[i];
      } else if i < |w3| + |value| {
        assert rest[i] == value[i - |w3|];
      } else {
        assert rest[i] == w4[i - |w3| - |value|];
      }
    }
    if value != [] {
      TrimIsTrimmedSlice(value);
    }
    assert w3 + value + w4 == rest;
    CurrentIgnoresPadding(key, w1, w2, w3, value, w4);
  }

  /** The plain assignment `key=value` holds the key with `current == value`. */
  lemma CurrentOfPlain(key: string, value: string)
    requires Plain(key) && Plain(value)
    ensures Current(key)(key + "=" + value) == Some(value)
  {
    CurrentOfAssignment(key, value);
  }

  /** A `#` line does not hold a key that does not itself start with `#`. */
  lemma CurrentOfComment(key: string, text: string)
    requires Plain(key) && (key == [] || key[0] != '#')
    ensures Current(key)("#" + text) == None
  {
    TrimmedKeyIsRegexTrimmed(key);
    CommentNeverMatches(key, text);
  }

  /** The pass over one line is one step from the empty accumulator. */
  lemma EditOfOne(m: Matcher, key: string, value: string, l0: string)
    ensures Edit(m, key, value, [l0]) == Step(m, key, value, EditOutcome([], false, false), l0)
  {
    assert [l0][..0] == [];
  }

  /** The pass over two lines is two steps, in order. */
  lemma EditOfTwo(m: Matcher, key: string, value: string, l0: string, l1: string)
    ensures Edit(m, key, value, [l0, l1])
         == Step(m, key, value, Step(m, key, value, EditOutcome([], false, false), l0), l1)
  {
    assert [l0, l1][..1] == [l0];
    EditOfOne(m, key, value, l0);
  }

  /** The pass over three lines is three steps, in order. */
  lemma EditOfThree(m: Matcher, key: string, value: string, l0: string, l1: string, l2: string)
    ensures Edit(m, key, value, [l0, l1, l2])
         == Step(m, key, value, Step(m, key, value, Step(m, key, value, EditOutcome([], false, false), l0), l1), l2)
  {
    assert [l0, l1, l2][..2] == [l0, l1];
    EditOfTwo(m, key, value, l0, l1);
  }

  /** A comment is kept, and an assignment that already holds the value is
      found and left alone. */
  lemma ParsesLines(key: string, value: string, text: string)
    requires Plain(key) && Plain(value) && (key == [] || key[0] != '#')
    ensures var lines := ["#" + text, key + "=" + value];
      UpdateProperty(lines, key, value) == EditOutcome(lines, true, false)
  {
    CurrentOfComment(key, text);
    CurrentOfPlain(key, value);
    EditOfTwo(Current(key), key, value, "#" + text, key + "=" + value);
  }

  /** Blanks around the key, the `=` and the value do not make a line stale. */
  lemma IgnoresWhitespace(key: string, value: string, w1: string, w2: string, w3: string, w4: string)
    requires Plain(key) && Plain(value)
    requires Blanks(w1) && Blanks(w2) && Blanks(w3) && Blanks(w4)
    ensures var lines := [Padded(key, value, w1, w2, w3, w4)];
      UpdateProperty(lines, key, value) == EditOutcome(lines, true, false)
  {
    CurrentOfPadded(key, value, w1, w2, w3, w4);
    EditOfOne(Current(key), key, value, Padded(key, value, w1, w2, w3, w4));
  }

  /** A commented-out assignment is not the key: nothing is found. */
  lemma IgnoresCommentedOutValue(key: string, value: string)
    requires Plain(key) && Plain(value) && (key == [] || key[0] != '#')
    ensures var lines := ["#" + key + "=" + value];
      UpdateProperty(lines, key, value) == EditOutcome(lines, false, false)
  {
    assert "#" + key + "=" + value == "#" + (key + "=" + value);
    CurrentOfComment(key, key + "=" + value);
    EditOfOne(Current(key), key, value, "#" + key + "=" + value);
  }

  /** A stale assignment is rewritten to the new value. */
  lemma UpdatesValue(key: string, stale: string, value: string)
    requires Plain(key) && Plain(stale) && Plain(value) && stale != value
    ensures UpdateProperty([key + "=" + stale], key, value) == EditOutcome([key + "=" + value], true, true)
  {
    CurrentOfPlain(key, stale);
    EditOfOne(Current(key), key, value, key + "=" + stale);
  }

  /** A stale padded assignment is rewritten without its padding. */
  lemma UpdatedValueTrimsWhitespace(key: string, stale: string, value: string,
                                    w1: string, w2: string, w3: string, w4: string)
    requires Plain(key) && Plain(stale) && Plain(value) && stale != value
    requires Blanks(w1) && Blanks(w2) && Blanks(w3) && Blanks(w4)
    ensures UpdateProperty([Padded(key, stale, w1, w2, w3, w4)], key, value)
         == EditOutcome([key + "=" + value], true, true)
  {
    CurrentOfPadded(key, stale, w1, w2, w3, w4);
    EditOfOne(Current(key), key, value, Padded(key, stale, w1, w2, w3, w4));
  }

  /** An earlier line that already holds the value does not hide a later stale
      one: the later one is rewritten and `updated` is set. */
  lemma LastValueDeterminesUpdated(key: string, stale: string, value: string,
                                   w1: string, w2: string, w3: string, w4: string)
    requires Plain(key) && Plain(stale) && Plain(value) && stale != value
    requires Blanks(w1) && Blanks(w2) && Blanks(w3) && Blanks(w4)
    ensures var first := Padded(key, value, w1, w2, w3, w4);
      UpdateProperty([first, key + "=" + stale], key, value)
        == EditOutcome([first, key + "=" + value], true, true)
  {
    CurrentOfPadded(key, value, w1, w2, w3, w4);
    CurrentOfPlain(key, stale);
    EditOfTwo(Current(key), key, value, Padded(key, value, w1, w2, w3, w4), key + "=" + stale);
  }

  /** An earlier stale line is rewritten, but when the last line already holds
      the value, `updated` stays false. */
  lemma NotUpdatedWhenLastAlreadyHoldsValue(key: string, stale: string, value: string,
                                            w1: string, w2: string, w3: string, w4: string)
    requires Plain(key) && Plain(stale) && Plain(value) && stale != value
    requires Blanks(w1) && Blanks(w2) && Blanks(w3) && Blanks(w4)
    ensures UpdateProperty([Padded(key, stale, w1, w2, w3, w4), key + "=" + value], key, value)
         == EditOutcome([key + "=" + value, key + "=" + value], true, false)
  {
    CurrentOfPadded(key, stale, w1, w2, w3, w4);
    CurrentOfPlain(key, value);
    EditOfTwo(Current(key), key, value, Padded(key, stale, w1, w2, w3, w4), key + "=" + value);
  }

  /** A file as `Properties.store` writes it, a comment line, a date line and
      the assignment, is read without change when it already holds the value. */
  lemma ReadsStoredFile(key: string, value: string, comments: string, date: string)
    requires Plain(key) && Plain(value) && (key == [] || key[0] != '#')
    ensures var lines := ["#" + comments, "#" + date, key + "=" + value];
      UpdateProperty(lines, key, value) == EditOutcome(lines, true, false)
  {
    CurrentOfComment(key, comments);
    CurrentOfComment(key, date);
    CurrentOfPlain(key, value);
    EditOfThree(Current(key), key, value, "#" + comments, "#" + date, key + "=" + value);
  }

  /** A stored file holding a stale value: the third line is rewritten to the
      new value. */
  lemma WritesStoredFile(key: string, stale: string, value: string, comments: string, date: string)
    requires Plain(key) && Plain(stale) && Plain(value) && stale != value && (key == [] || key[0] != '#')
    ensures UpdateProperty(["#" + comments, "#" + date, key + "=" + stale], key, value)
         == EditOutcome(["#" + comments, "#" + date, key + "=" + value], true, true)
  {
    CurrentOfComment(key, comments);
    CurrentOfComment(key, date);
    CurrentOfPlain(key, stale);
    EditOfThree(Current(key), key, value, "#" + comments, "#" + date, key + "=" + stale);
  }

  /** The rewritten stored file, saved and read back, gives the same lines, and
      the key's effective value in them is the new value. */
  lemma StoredFileReadsBack(key: string, value: string, comments: string, date: string)
    requires Plain(key) && Plain(value) && (key == [] || key[0] != '#')
    requires '\n' !in comments && '\n' !in date
    ensures var lines := ["#" + comments, "#" + date, key + "=" + value];
      && ParseSaved(SaveResult(lines)) == lines
      && LastCurrent(Current(key), ParseSaved(SaveResult(lines))) == Some(value)
  {
    var lines := ["#" + comments, "#" + date, key + "=" + value];
    AssignmentHasNoNewline(key, value);
    assert '\n' !in "#" + comments && '\n' !in "#" + date;
    SaveParseRoundTrip(lines);
    CurrentOfPlain(key, value);
  }

  /** A key given with a trailing no-break-space-like blank: the first edit
      rewrites the stale line, but writes the key as given, so editing the
      result again no longer finds the key at all. */
  lemma PaddedKeySecondEditFindsNothing(k: string, c: char, stale: string, value: string)
    requires Plain(k) && Plain(stale) && Plain(value) && stale != value
    requires IsTrimWs(c) && !IsRegexWs(c)
    ensures var once := UpdateProperty([k + "=" + stale], k + [c], value);
      && once == EditOutcome([k + [c] + "=" + value], true, true)
      && UpdateProperty(once.lines, k + [c], value) == EditOutcome(once.lines, false, false)
  {
    PaddedKeyLosesWrittenLine(k, c, value);
    CurrentOfPlain(k, stale);
    assert Current(k + [c])(k + "=" + stale) == Current(k)(k + "=" + stale);
    EditOfOne(Current(k + [c]), k + [c], value, k + "=" + stale);
    EditOfOne(Current(k + [c]), k + [c], value, k + [c] + "=" + value);
  }

  /** A key that itself starts with `#` is found on the line `key=value`, so
      a line that reads as a comment can hold the key. */
  lemma HashKeyFindsCommentLine(key: string, value: string)
    requires Plain(key) && Plain(value) && key != [] && key[0] == '#'
    ensures (key + "=" + value)[0] == '#'
    ensures var lines := [key + "=" + value];
      UpdateProperty(lines, key, value) == EditOutcome(lines, true, false)
  {
    CurrentOfPlain(key, value);
    EditOfOne(Current(key), key, value, key + "=" + value);
  }

  // The unit tests' own lines, as instances of the cases above.

  /** `#comment` and `foo=bar`, edited to `bar`: found, nothing changes. */
  lemma ParsesLinesExample()
    ensures UpdateProperty(["#comment", "foo=bar"], "foo", "bar") == EditOutcome(["#comment", "foo=bar"], true, false)
  {
    assert Trim("foo") == "foo" && Trim("bar") == "bar";
    assert "#comment" == "#" + "comment";
    assert "foo=bar" == "foo" + "=" + "bar";
    ParsesLines("foo", "bar", "comment");
    assert ["#comment", "foo=bar"] == ["#" + "comment", "foo" + "=" + "bar"];
  }

  /** `  foo  =  bar  `, edited to `bar`: found, nothing changes. */
  lemma IgnoresWhitespaceExample()
    ensures UpdateProperty(["  foo  =  bar  "], "foo", "bar") == EditOutcome(["  foo  =  bar  "], true, false)
  {
    assert Trim("foo") == "foo" && Trim("bar") == "bar";
    assert Blanks("  ");
    assert Padded("foo", "bar", "  ", "  ", "  ", "  ") == "  foo  =  bar  ";
    IgnoresWhitespace("foo", "bar", "  ", "  ", "  ", "  ");
  }

  /** `#foo=bar`, edited to `bar`: not found. */
  lemma IgnoresCommentedOutValueExample()
    ensures UpdateProperty(["#foo=bar"], "foo", "bar") == EditOutcome(["#foo=bar"], false, false)
  {
    assert Trim("foo") == "foo" && Trim("bar") == "bar";
    assert "#foo=bar" == "#" + "foo" + "=" + "bar";
    IgnoresCommentedOutValue("foo", "bar");
  }

  /** `foo=baz`, edited to `bar`: rewritten to `foo=bar`. */
  lemma UpdatesValueExample()
    ensures UpdateProperty(["foo=baz"], "foo", "bar") == EditOutcome(["foo=bar"], true, true)
  {
    assert Trim("foo") == "foo" && Trim("bar") == "bar" && Trim("baz") == "baz";
    assert "foo=baz" == "foo" + "=" + "baz";
    assert "foo=bar" == "foo" + "=" + "bar";
    UpdatesValue("foo", "baz", "bar");
  }

  /** `   foo  =    baz   `, edited to `bar`: rewritten to `foo=bar`. */
  lemma UpdatedValueTrimsWhitespaceExample()
    ensures UpdateProperty(["   foo  =    baz   "], "foo", "bar") == EditOutcome(["foo=bar"], true, true)
  {
    assert Trim("foo") == "foo" && Trim("bar") == "bar" && Trim("baz") == "baz";
    assert Blanks("   ") && Blanks("  ") && Blanks("    ");
    assert Padded("foo", "baz", "   ", "  ", "    ", "   ") == "   foo  =    baz   ";
    assert "foo=bar" == "foo" + "=" + "bar";
    UpdatedValueTrimsWhitespace("foo", "baz", "bar", "   ", "  ", "    ", "   ");
  }

  /** `   foo  =    bar   ` then `foo=baz`, edited to `bar`: the first line is
      kept, the second rewritten, and `updated` is set. */
  lemma LastValueDeterminesUpdatedExample()
    ensures UpdateProperty(["   foo  =    bar   ", "foo=baz"], "foo", "bar")
         == EditOutcome(["   foo  =    bar   ", "foo=bar"], true, true)
  {
    assert Trim("foo") == "foo" && Trim("bar") == "bar" && Trim("baz") == "baz";
    assert Blanks("   ") && Blanks("  ") && Blanks("    ");
    assert Padded("foo", "bar", "   ", "  ", "    ", "   ") == "   foo  =    bar   ";
    assert "foo=baz" == "foo" + "=" + "baz";
    assert "foo=bar" == "foo" + "=" + "bar";
    LastValueDeterminesUpdated("foo", "baz", "bar", "   ", "  ", "    ", "   ");
  }

  /** The same two lines edited to `baz`: both become `foo=baz`, and `updated`
      stays false because the last line already held `baz`. */
  lemma NotUpdatedWhenLastAlreadyHoldsValueExample()
    ensures UpdateProperty(["   foo  =    bar   ", "foo=baz"], "foo", "baz")
         == EditOutcome(["foo=baz", "foo=baz"], true, false)
  {
    assert Trim("foo") == "foo" && Trim("bar") == "bar" && Trim("baz") == "baz";
    assert Blanks("   ") && Blanks("  ") && Blanks("    ");
    assert Padded("foo", "bar", "   ", "  ", "    ", "   ") == "   foo  =    bar   ";
    assert "foo=baz" == "foo" + "=" + "baz";
    NotUpdatedWhenLastAlreadyHoldsValue("foo", "bar", "baz", "   ", "  ", "    ", "   ");
  }

  /** The file `Properties.store` writes for `foo=bar` with the comment
      `the comments`, whatever its date line: found, nothing changes. */
  lemma ReadsStoredFileExample(date: string)
    ensures var lines := ["#the comments", "#" + date, "foo=bar"];
      UpdateProperty(lines, "foo", "bar") == EditOutcome(lines, true, false)
  {
    assert Trim("foo") == "foo" && Trim("bar") == "bar";
    assert "#the comments" == "#" + "the comments";
    assert "foo=bar" == "foo" + "=" + "bar";
    ReadsStoredFile("foo", "bar", "the comments", date);
  }

  /** The stored file for `foo=baz`, edited to `bar`: the third line becomes
      `foo=bar`; saved and read back, the lines are the same and the key's
      effective value is `bar`. */
  lemma WritesStoredFileExample(date: string)
    requires '\n' !in date
    ensures var r := UpdateProperty(["#the comments", "#" + date, "foo=baz"], "foo", "bar");
      && r == EditOutcome(["#the comments", "#" + date, "foo=bar"], true, true)
      && LastCurrent(Current("foo"), ParseSaved(SaveResult(r.lines))) == Some("bar")
  {
    assert Trim("foo") == "foo" && Trim("bar") == "bar" && Trim("baz") == "baz";
    assert "#the comments" == "#" + "the comments";
    assert "foo=baz" == "foo" + "=" + "baz";
    assert "foo=bar" == "foo" + "=" + "bar";
    WritesStoredFile("foo", "baz", "bar", "the comments", date);
    assert '\n' !in "the comments";
    StoredFileReadsBack("foo", "bar", "the comments", date);
  }
}

=== FILE: properties_editor.dfy ===
/** The non-destructive properties editor: one left-to-right pass over the
    lines of a `key=value` file that rewrites every line holding the key whose
    trimmed value differs from the requested one, keeps every other line as it
    is, and reports whether the key was found (`matched`) and whether the LAST
    line holding it was stale (`updated`). Also the serialiser that writes the
    lines back, one `\n` after each. */
module PropertiesEditor {
  import opened Wrappers
  import opened Text
  import opened PropertyLine

  /** The result of one edit: the possibly rewritten lines and the two flags. */
  datatype EditOutcome = EditOutcome(lines: seq<string>, matched: bool, updated: bool)

  /** What the pass needs to know of a line: the source's `current`, i.e. the
      trimmed captured value when the line holds the key, `None` otherwise.
      The pass and its lemmas are stated for any such view of a line; the
      editor uses `Current`, built from the pattern matcher. */
  type Matcher = string -> Option<string>

  /** The source's `current` for key `key`: group 1 of the pattern for the
      trimmed key, trimmed. */
  function Current(key: string): Matcher
  {
    line => match MatchValue(Trim(key), line)
            case Some(group) => Some(Trim(group))
            case None => None
  }

  /** Line `i` is the last line of `lines` that holds the key. */
  predicate IsLastMatch(m: Matcher, lines: seq<string>, i: nat)
    requires i < |lines|
  {
    m(lines[i]).Some? && forall j :: i < j < |lines| ==> m(lines[j]).None?
  }

  /** The `current` of the last line holding the key, found by a scan from the
      end of the file: the effective value a reader of the file sees. */
  function LastCurrent(m: Matcher, lines: seq<string>): (r: Option<string>)
    ensures r.None? ==> forall j :: 0 <= j < |lines| ==> m(lines[j]).None?
    ensures r.Some? ==> exists i :: 0 <= i < |lines| && IsLastMatch(m, lines, i) && m(lines[i]) == r
    decreases |lines|
  {
    if |lines| == 0 then None
    else
      var n := |lines| - 1;
      match m(lines[n])
      case Some(v) => Some(v)
      case None =>
        var r := LastCurrent(m, lines[..n]);
        assert forall j :: 0 <= j < n ==> lines[..n][j] == lines[j];
        if r.Some? then
          var i :| 0 <= i < n && IsLastMatch(m, lines[..n], i) && m(lines[..n][i]) == r;
          assert IsLastMatch(m, lines, i);
          r
        else r
  }

  /** The rule each line follows on its own: a line that does not hold the key
      is kept; one whose `current` already equals `value` is kept; any other
      becomes exactly `key=value`, with the key as given, untrimmed. */
  function EditLine(m: Matcher, key: string, value: string, line: string): string
  {
    match m(line)
    case None => line
    case Some(current) => if current == value then line else key + "=" + value
  }

  /** One step of the pass, carrying the accumulator `(lines, matched, updated)`:
      a line that does not hold the key is copied; a line that does sets
      `matched`, OVERWRITES `updated` with `current != value`, and is replaced
      by `key=value` exactly when they differ. */
  function Step(m: Matcher, key: string, value: string, acc: EditOutcome, line: string): EditOutcome
  {
    match m(line)
    case None => acc.(lines := acc.lines + [line])
    case Some(current) =>
      var modified := current != value;
      EditOutcome(acc.lines + [if modified then key + "=" + value else line], true, modified)
  }

  /** The pass as a fold of `Step` over the lines from an empty accumulator.
      It is a map: the output has the input's length and line `i` of it is
      `EditLine` of input line `i`, whatever the lines around it. */
  function Edit(m: Matcher, key: string, value: string, lines: seq<string>): (r: EditOutcome)
    ensures |r.lines| == |lines|
    ensures forall i :: 0 <= i < |lines| ==> r.lines[i] == EditLine(m, key, value, lines[i])
    decreases |lines|
  {
    if |lines| == 0 then EditOutcome([], false, false)
    else
      var n := |lines| - 1;
      var acc := Edit(m, key, value, lines[..n]);
      assert forall i :: 0 <= i < n ==> lines[..n][i] == lines[i];
      Step(m, key, value, acc, lines[n])
  }

  /** `matched` is true exactly when some line holds the key. */
  lemma {:induction false} EditMatched(m: Matcher, key: string, value: string, lines: seq<string>)
    ensures Edit(m, key, value, lines).matched <==> exists i :: 0 <= i < |lines| && m(lines[i]).Some?
    decreases |lines|
  {
    if |lines| > 0 {
      var n := |lines| - 1;
      EditMatched(m, key, value, lines[..n]);
      assert Edit(m, key, value, lines).matched == (Edit(m, key, value, lines[..n]).matched || m(lines[n]).Some?);
      if i :| 0 <= i < n && m(lines[..n][i]).Some? {
        assert lines[..n][i] == lines[i];
      }
      if i :| 0 <= i < |lines| && m(lines[i]).Some? {
        if i < n {
          assert lines[..n][i] == lines[i];
        }
      }
    }
  }

  /** `updated` is true exactly when some line holds the key and the last such
      line's `current` differs from `value`; earlier lines play no part. */
  lemma {:induction false} EditUpdated(m: Matcher, key: string, value: string, lines: seq<string>)
    ensures Edit(m, key, value, lines).updated <==>
      (LastCurrent(m, lines).Some? && LastCurrent(m, lines).value != value)
    decreases |lines|
  {
    if |lines| > 0 {
      EditUpdated(m, key, value, lines[..|lines| - 1]);
    }
  }

  /** The editor's edit: the pass with the pattern matcher for `key`. */
  function UpdateProperty(lines: seq<string>, key: string, value: string): EditOutcome
  {
    Edit(Current(key), key, value, lines)
  }

  /** What the editor's edit returns: every line follows the per-line rule,
      `matched` says some line holds the key, and `updated` says the last line
      holding it had a different value; `updated` implies `matched`. */
  lemma UpdatePropertySpec(lines: seq<string>, key: string, value: string)
    ensures var r := UpdateProperty(lines, key, value);
      && |r.lines| == |lines|
      && (forall i :: 0 <= i < |lines| ==> r.lines[i] == EditLine(Current(key), key, value, lines[i]))
      && (r.matched <==> exists i :: 0 <= i < |lines| && Current(key)(lines[i]).Some?)
      && (r.updated <==>
           (LastCurrent(Current(key), lines).Some? && LastCurrent(Current(key), lines).value != value))
      && (r.updated ==> r.matched)
  {
    EditMatched(Current(key), key, value, lines);
    EditUpdated(Current(key), key, value, lines);
  }

  /** The same pass written as the source writes it: a loop over the lines with
      two mutable flags and an output list. */
  method UpdatePropertyPass(lines: seq<string>, key: string, value: string) returns (r: EditOutcome)
    ensures r == UpdateProperty(lines, key, value)
  {
    var trimmedKey := Trim(key);
    var modified := false;
    var found := false;
    var out: seq<string> := [];
    for i := 0 to |lines|
      invariant EditOutcome(out, found, modified) == Edit(Current(key), key, value, lines[..i])
    {
      assert lines[..i + 1][..i] == lines[..i];
      var line := lines[i];
      match MatchValue(trimmedKey, line) {
        case Some(group) =>
          found := true;
          var current := Trim(group);
          modified := current != value;
          if modified {
            out := out + [key + "=" + value];
          } else {
            out := out + [line];
          }
        case None =>
          out := out + [line];
      }
    }
    assert lines[..|lines|] == lines;
    r := EditOutcome(out, found, modified);
  }

  /** Non-destructive: every output line is either its input line or the
      assignment `key=value`. */
  lemma EditWritesOnlyAssignment(m: Matcher, key: string, value: string, lines: seq<string>)
    ensures forall i :: 0 <= i < |lines| ==>
      Edit(m, key, value, lines).lines[i] == lines[i] || Edit(m, key, value, lines).lines[i] == key + "=" + value
  {
  }

  /** Editing a concatenation is editing the parts: the lines are the two
      edited parts side by side, `matched` is either part's, and `updated` is
      the second part's when that part holds the key. */
  lemma EditConcat(m: Matcher, key: string, value: string, p: seq<string>, s: seq<string>)
    ensures var whole, first, second :=
        Edit(m, key, value, p + s), Edit(m, key, value, p), Edit(m, key, value, s);
      && whole.lines == first.lines + second.lines
      && whole.matched == (first.matched || second.matched)
      && whole.updated == (if second.matched then second.updated else first.updated)
  {
    var whole, first, second := Edit(m, key, value, p + s), Edit(m, key, value, p), Edit(m, key, value, s);
    forall i | 0 <= i < |p + s|
      ensures whole.lines[i] == (first.lines + second.lines)[i]
    {
      if i < |p| {
        assert (p + s)[i] == p[i];
      } else {
        assert (p + s)[i] == s[i - |p|];
      }
    }
    EditMatched(m, key, value, p + s);
    EditMatched(m, key, value, p);
    EditMatched(m, key, value, s);
    if second.matched {
      var i :| 0 <= i < |s| && m(s[i]).Some?;
      assert (p + s)[|p| + i] == s[i];
    }
    if whole.matched {
      var i :| 0 <= i < |p + s| && m((p + s)[i]).Some?;
      if i < |p| {
        assert (p + s)[i] == p[i];
      } else {
        assert (p + s)[i] == s[i - |p|];
      }
    }
    EditUpdated(m, key, value, p + s);
    EditUpdated(m, key, value, p);
    EditUpdated(m, key, value, s);
    LastCurrentConcat(m, p, s);
  }

  /** Appending one line: it decides when it holds the key, and otherwise the
      earlier lines do. */
  lemma LastCurrentSnoc(m: Matcher, q: seq<string>, x: string)
    ensures LastCurrent(m, q + [x]) == if m(x).Some? then m(x) else LastCurrent(m, q)
  {
    assert (q + [x])[..|q|] == q;
  }

  /** The last line holding the key in `p + s` is the last one in `s` when `s`
      has one, and the last one in `p` otherwise. */
  lemma {:induction false} LastCurrentConcat(m: Matcher, p: seq<string>, s: seq<string>)
    ensures LastCurrent(m, p + s) == if LastCurrent(m, s).Some? then LastCurrent(m, s) else LastCurrent(m, p)
    decreases |s|
  {
    if |s| == 0 {
      assert p + s == p;
    } else {
      var n := |s| - 1;
      assert p + s == (p + s[..n]) + [s[n]];
      assert s == s[..n] + [s[n]];
      LastCurrentConcat(m, p, s[..n]);
      LastCurrentSnoc(m, p + s[..n], s[n]);
      LastCurrentSnoc(m, s[..n], s[n]);
    }
  }

  /** Last match wins: once a later part of the file holds the key, nothing
      before it has any influence on `updated`, while the earlier part is
      still edited line by line. */
  lemma LastMatchWins(p: seq<string>, s: seq<string>, key: string, value: string)
    requires exists i :: 0 <= i < |s| && Current(key)(s[i]).Some?
    ensures UpdateProperty(p + s, key, value).updated == UpdateProperty(s, key, value).updated
    ensures UpdateProperty(p + s, key, value).lines
         == UpdateProperty(p, key, value).lines + UpdateProperty(s, key, value).lines
  {
    EditConcat(Current(key), key, value, p, s);
    EditMatched(Current(key), key, value, s);
  }

  /** The per-line rule in the terms of the regular expression: a line that
      does not match is returned unchanged, and a line that matches with value
      `line[b + 1..]` is kept when that value trims to `value` and is otherwise
      replaced by exactly `key=value`; `matched` says some line matches. */
  lemma EditFollowsPattern(lines: seq<string>, key: string, value: string)
    ensures var r := UpdateProperty(lines, key, value);
      && (forall i :: 0 <= i < |lines| && !Matches(Trim(key), lines[i]) ==> r.lines[i] == lines[i])
      && (forall i, a: nat, b: nat :: 0 <= i < |lines| && ShapeAt(Trim(key), lines[i], a, b) ==>
            r.lines[i] == (if Trim(lines[i][b + 1..]) == value then lines[i] else key + "=" + value))
      && (r.matched <==> exists i :: 0 <= i < |lines| && Matches(Trim(key), lines[i]))
  {
    var k := Trim(key);
    UpdatePropertySpec(lines, key, value);
    TrimmedKeyIsRegexTrimmed(key);
    forall i | 0 <= i < |lines|
      ensures Current(key)(lines[i]).Some? <==> Matches(k, lines[i])
    {
      MatchValueIsMatch(k, lines[i]);
    }
    forall i, a: nat, b: nat | 0 <= i < |lines| && ShapeAt(k, lines[i], a, b)
      ensures Current(key)(lines[i]) == Some(Trim(lines[i][b + 1..]))
    {
      MatchValueComplete(k, lines[i], a, b);
    }
  }

  /** Re-editing with a view in which the replacement line `key=value` holds
      the key with `current == value`: nothing changes, `updated` is false, and
      every line holds the key exactly when its source line did. */
  lemma EditIdempotent(m: Matcher, key: string, value: string, lines: seq<string>)
    requires m(key + "=" + value) == Some(value)
    ensures var once := Edit(m, key, value, lines);
      var twice := Edit(m, key, value, once.lines);
      && twice.lines == once.lines
      && !twice.updated
      && twice.matched == once.matched
  {
    var once := Edit(m, key, value, lines);
    var twice := Edit(m, key, value, once.lines);
    forall i | 0 <= i < |lines|
      ensures twice.lines[i] == once.lines[i]
      ensures m(once.lines[i]).Some? <==> m(lines[i]).Some?
      ensures m(once.lines[i]).Some? ==> m(once.lines[i]).value == value
    {
    }
    assert twice.lines == once.lines;
    EditMatched(m, key, value, lines);
    EditMatched(m, key, value, once.lines);
    EditUpdated(m, key, value, once.lines);
    if once.matched {
      var i :| 0 <= i < |lines| && m(lines[i]).Some?;
      assert m(once.lines[i]).Some?;
    }
    if twice.matched {
      var i :| 0 <= i < |once.lines| && m(once.lines[i]).Some?;
      assert m(lines[i]).Some?;
    }
    if LastCurrent(m, once.lines).Some? {
      var i :| 0 <= i < |once.lines| && IsLastMatch(m, once.lines, i) && m(once.lines[i]) == LastCurrent(m, once.lines);
    }
  }

  /** Idempotence: for a key that `trim` leaves alone and a value with no
      whitespace at either end and no line terminator, editing the editor's own
      output changes nothing, reports no update, and finds the key exactly
      when the first edit did. */
  lemma Idempotent(lines: seq<string>, key: string, value: string)
    requires key == Trim(key)
    requires value == Trim(value)
    requires NoLineTerm(value)
    ensures var once := UpdateProperty(lines, key, value);
      var twice := UpdateProperty(once.lines, key, value);
      && twice.lines == once.lines
      && !twice.updated
      && twice.matched == once.matched
  {
    CurrentOfAssignment(key, value);
    EditIdempotent(Current(key), key, value, lines);
  }

  /** Why idempotence asks for a trimmed key: the replacement line carries the
      key as given. When the key ends in a character that `trim` strips but
      `\s` does not match (a no-break space, say), the line written for it does
      not hold the key. */
  lemma PaddedKeyLosesWrittenLine(k: string, c: char, value: string)
    requires k == Trim(k)
    requires IsTrimWs(c) && !IsRegexWs(c)
    ensures Trim(k + [c]) == k
    ensures Current(k + [c])(k + [c] + "=" + value) == None
  {
    TrimmedKeyIsRegexTrimmed(k);
    TrimIsTrimmedSlice(k);
    TrimPadded("", k, [c]);
    assert "" + k + [c] == k + [c];
    LongerKeyDoesNotMatch(k, [c], value);
    assert k + [c] + "=" + value == k + [c] + "=" + value;
  }

  /** The replacement line holds its own key, with `current` equal to the
      value written, under the same conditions. */
  lemma CurrentOfAssignment(key: string, value: string)
    requires key == Trim(key)
    requires value == Trim(value)
    requires NoLineTerm(value)
    ensures Current(key)(key + "=" + value) == Some(value)
  {
    TrimmedKeyIsRegexTrimmed(key);
    AssignmentMatches(key, value);
    var m := MatchValue(Trim(key), key + "=" + value);
    assert m == Some(value);
  }

  /** Blanks around the key, around the `=` and around the value are ignored:
      a line made of the key and a value with any such padding holds the key,
      and its `current` is the bare value. */
  lemma CurrentIgnoresPadding(key: string, w1: string, w2: string, w3: string, value: string, w4: string)
    requires key == Trim(key)
    requires forall i :: 0 <= i < |w1| ==> IsRegexWs(w1[i])
    requires forall i :: 0 <= i < |w2| ==> IsRegexWs(w2[i])
    requires IsBlank(w3) && IsBlank(w4)
    requires value == [] || (!IsTrimWs(value[0]) && !IsTrimWs(value[|value| - 1]))
    requires NoLineTerm(w3 + value + w4)
    ensures Current(key)(w1 + key + w2 + "=" + w3 + value + w4) == Some(value)
  {
    TrimmedKeyIsRegexTrimmed(key);
    var rest := w3 + value + w4;
    var line := w1 + key + w2 + "=" + w3 + value + w4;
    assert line == w1 + key + w2 + "=" + rest;
    PaddedAssignmentMatches(key, w1, w2, rest);
    TrimPadded(w3, value, w4);
  }

  /** Every `current` is a trimmed string. */
  lemma CurrentIsTrimmed(key: string, line: string)
    requires Current(key)(line).Some?
    ensures Trim(Current(key)(line).value) == Current(key)(line).value
  {
    var group := MatchValue(Trim(key), line).value;
    TrimIdempotent(group);
  }

  /** A value with whitespace at either end is never equal to a `current`, so
      the edit never settles: every run reports `updated` whenever the key is
      found, and rewrites every line holding it. */
  lemma UntrimmedValueNeverSettles(lines: seq<string>, key: string, value: string)
    requires value != Trim(value)
    ensures var r := UpdateProperty(lines, key, value);
      && r.updated == r.matched
      && forall i :: 0 <= i < |lines| && Current(key)(lines[i]).Some? ==> r.lines[i] == key + "=" + value
  {
    var r := UpdateProperty(lines, key, value);
    var m := Current(key);
    UpdatePropertySpec(lines, key, value);
    forall i | 0 <= i < |lines| && m(lines[i]).Some?
      ensures m(lines[i]).value != value
    {
      CurrentIsTrimmed(key, lines[i]);
    }
    if r.matched {
      var last := LastCurrent(m, lines);
      var i :| 0 <= i < |lines| && IsLastMatch(m, lines, i) && m(lines[i]) == last;
    }
  }

  /** `key=value` holds no `\n` when neither part does. */
  lemma AssignmentHasNoNewline(key: string, value: string)
    requires NoLineTerm(key) && NoLineTerm(value)
    ensures '\n' !in key + "=" + value
  {
    var line := key + "=" + value;
    forall i | 0 <= i < |line|
      ensures line[i] != '\n'
    {
      if i < |key| {
        assert line[i] == key[i];
      } else if i > |key| {
        assert line[i] == value[i - |key| - 1];
      }
    }
  }

  /** The file contents the serialiser writes: every line followed by one
      `\n`, in order, nothing else. */
  function SaveResult(lines: seq<string>): (text: string)
    ensures text == "" <==> lines == []
    ensures text != "" ==> text[|text| - 1] == '\n'
    ensures |text| >= |lines|
    decreases |lines|
  {
    if |lines| == 0 then "" else lines[0] + "\n" + SaveResult(lines[1..])
  }

  /** Splits saved text back into lines at each `\n`; the empty piece after a
      final `\n` is not a line. */
  function ParseSaved(text: string): (lines: seq<string>)
    ensures forall i :: 0 <= i < |lines| ==> '\n' !in lines[i]
    ensures text == "" ==> lines == []
  {
    var parts := Split(text, '\n');
    if parts[|parts| - 1] == "" then parts[..|parts| - 1] else parts
  }

  /** Saving is joining the lines, plus a final empty piece, with `\n`. */
  lemma {:induction false} SaveResultIsJoin(lines: seq<string>)
    ensures SaveResult(lines) == Join(lines + [""], '\n')
    decreases |lines|
  {
    if |lines| > 0 {
      SaveResultIsJoin(lines[1..]);
      assert (lines + [""])[1..] == lines[1..] + [""];
    }
  }

  /** Reading back what was saved recovers the lines, when no line holds a
      `\n` of its own. */
  lemma SaveParseRoundTrip(lines: seq<string>)
    requires forall i :: 0 <= i < |lines| ==> '\n' !in lines[i]
    ensures ParseSaved(SaveResult(lines)) == lines
  {
    var parts := lines + [""];
    forall i | 0 <= i < |parts|
      ensures '\n' !in parts[i]
    {
      if i < |lines| {
        assert parts[i] == lines[i];
      }
    }
    SaveResultIsJoin(lines);
    SplitJoin(parts, '\n');
    assert Split(SaveResult(lines), '\n') == parts;
    assert parts[|parts| - 1] == "";
    assert parts[..|parts| - 1] == lines;
  }
}

=== FILE: property_line.dfy ===
/** The line matcher of the properties editor: the Java pattern
    `^\s*<quoted key>\s*=(.*)$` applied with `Matcher.matches()`, which must
    consume the whole line. It is given twice: `ShapeAt` says what a match is
    (some split of the line into blanks, the literal key, blanks, `=` and a
    value free of line terminators), and `MatchValue` computes the captured
    group the way a left-to-right scan does. The two agree whenever the key has
    no `\s` at either end, which always holds for a key that went through
    Kotlin's `trim`. Positions are indices into the line throughout. */
module PropertyLine {
  import opened Wrappers
  import opened Text

  /** The first index at or after `i` that does not hold a `\s` character
      (or the end of the line). */
  function SkipWs(line: string, i: nat): (j: nat)
    requires i <= |line|
    ensures i <= j <= |line|
    decreases |line| - i
  {
    if i < |line| && IsRegexWs(line[i]) then SkipWs(line, i + 1) else i
  }

  /** `SkipWs` stops at the end of the run of `\s` that starts at `i`. */
  lemma {:induction false} SkipWsSpec(line: string, i: nat)
    requires i <= |line|
    ensures forall t :: i <= t < SkipWs(line, i) ==> IsRegexWs(line[t])
    ensures SkipWs(line, i) < |line| ==> !IsRegexWs(line[SkipWs(line, i)])
    decreases |line| - i
  {
    if i < |line| && IsRegexWs(line[i]) {
      SkipWsSpec(line, i + 1);
    }
  }

  /** A run of `\s` from `i` to `j`, ended by a non-`\s` character or by the
      end of the line, is exactly what `SkipWs` skips. */
  lemma {:induction false} SkipWsIs(line: string, i: nat, j: nat)
    requires i <= j <= |line|
    requires forall t :: i <= t < j ==> IsRegexWs(line[t])
    requires j < |line| ==> !IsRegexWs(line[j])
    ensures SkipWs(line, i) == j
    decreases j - i
  {
    if i < j {
      SkipWsIs(line, i + 1, j);
    }
  }

  /** The key `k` is spelled out in `line` from index `a`. */
  predicate KeyAt(k: string, line: string, a: nat) {
    a + |k| <= |line| && forall j :: 0 <= j < |k| ==> line[a + j] == k[j]
  }

  /** From index `i` on, `line` holds no line terminator: `.*` consumes it. */
  predicate NoLineTermFrom(line: string, i: nat) {
    forall t :: i <= t < |line| ==> !IsLineTerm(line[t])
  }

  /** `NoLineTermFrom` is `NoLineTerm` of the rest of the line. */
  lemma NoLineTermFromIsSuffix(line: string, i: nat)
    requires i <= |line|
    ensures NoLineTermFrom(line, i) <==> NoLineTerm(line[i..])
  {
    if NoLineTermFrom(line, i) {
      forall t | 0 <= t < |line| - i
        ensures !IsLineTerm(line[i..][t])
      {
        assert line[i..][t] == line[i + t];
      }
    }
    if NoLineTerm(line[i..]) {
      forall t | i <= t < |line|
        ensures !IsLineTerm(line[t])
      {
        assert line[t] == line[i..][t - i];
      }
    }
  }

  /** The key neither starts nor ends with a `\s` character. */
  predicate RegexTrimmed(k: string) {
    k == [] || (!IsRegexWs(k[0]) && !IsRegexWs(k[|k| - 1]))
  }

  /** A key returned by Kotlin's `trim` is regex-trimmed. */
  lemma TrimmedKeyIsRegexTrimmed(key: string)
    ensures RegexTrimmed(Trim(key))
  {
    TrimIsTrimmedSlice(key);
    var k := Trim(key);
    if k != [] {
      RegexWsIsTrimWs(k[0]);
      RegexWsIsTrimWs(k[|k| - 1]);
    }
  }

  /** The line splits as blanks before index `a`, the key `k` at `a`, blanks up
      to `b`, the `=` at `b`, and a value `line[b + 1..]` with no line
      terminator. */
  ghost predicate ShapeAt(k: string, line: string, a: nat, b: nat) {
    && a + |k| <= b < |line|
    && (forall i :: 0 <= i < a ==> IsRegexWs(line[i]))
    && KeyAt(k, line, a)
    && (forall i :: a + |k| <= i < b ==> IsRegexWs(line[i]))
    && line[b] == '='
    && NoLineTermFrom(line, b + 1)
  }

  /** The pattern for key `k` matches the whole of `line`. */
  ghost predicate Matches(k: string, line: string) {
    exists a: nat, b: nat :: ShapeAt(k, line, a, b)
  }

  /** The scan up to the `=`: skip the opening blanks, expect the key, skip
      blanks, expect `=`; the index of that `=`, if the line gets that far. */
  function EqualsAt(k: string, line: string): (b: Option<nat>)
    ensures b.Some? ==> b.value < |line|
  {
    var a := SkipWs(line, 0);
    if !KeyAt(k, line, a) then None
    else
      var b := SkipWs(line, a + |k|);
      if b < |line| && line[b] == '=' then Some(b) else None
  }

  /** Group 1 of the pattern for key `k` on `line`, or `None` when the line
      does not match: what follows the `=`, provided `.*` can consume it. */
  function MatchValue(k: string, line: string): Option<string>
  {
    match EqualsAt(k, line)
    case None => None
    case Some(b) => if NoLineTermFrom(line, b + 1) then Some(line[b + 1..]) else None
  }

  /** Whenever the scan returns a value, the line has the shape of a match and
      the value is what follows its `=`. */
  lemma MatchValueSound(k: string, line: string)
    ensures MatchValue(k, line).Some? ==>
      exists a: nat, b: nat :: ShapeAt(k, line, a, b) && MatchValue(k, line).value == line[b + 1..]
  {
    if MatchValue(k, line).Some? {
      var a := SkipWs(line, 0);
      var b := EqualsAt(k, line).value;
      SkipWsSpec(line, 0);
      SkipWsSpec(line, a + |k|);
      assert ShapeAt(k, line, a, b);
    }
  }

  /** The scan, given where the opening blanks end (`start`) and where the `=`
      is (`b`), stops at that `=`. */
  lemma EqualsAtFrom(k: string, line: string, start: nat, b: nat)
    requires SkipWs(line, 0) == start
    requires KeyAt(k, line, start)
    requires start + |k| <= b < |line|
    requires forall i :: start + |k| <= i < b ==> IsRegexWs(line[i])
    requires line[b] == '='
    ensures EqualsAt(k, line) == Some(b)
  {
    SkipWsIs(line, start + |k|, b);
  }

  /** Every decomposition of a matching line puts the `=` at the same place,
      so the captured group is well defined, and `MatchValue` finds it. */
  lemma MatchValueComplete(k: string, line: string, a: nat, b: nat)
    requires RegexTrimmed(k)
    requires ShapeAt(k, line, a, b)
    ensures MatchValue(k, line) == Some(line[b + 1..])
  {
    if |k| > 0 {
      // The key starts with a non-blank, so the opening blanks end at `a`.
      assert line[a + 0] == k[0];
      SkipWsIs(line, 0, a);
      EqualsAtFrom(k, line, a, b);
    } else {
      // With an empty key the blanks before it and after it form one run.
      SkipWsIs(line, 0, b);
      EqualsAtFrom(k, line, b, b);
    }
  }

  /** The computed matcher decides exactly the regular-expression match. */
  lemma MatchValueIsMatch(k: string, line: string)
    requires RegexTrimmed(k)
    ensures MatchValue(k, line).Some? <==> Matches(k, line)
  {
    MatchValueSound(k, line);
    if Matches(k, line) {
      var a: nat, b: nat :| ShapeAt(k, line, a, b);
      MatchValueComplete(k, line, a, b);
    }
  }

  /** Blanks before the key and between the key and `=` are skipped: the
      captured group is everything after the `=`. */
  lemma PaddedAssignmentMatches(key: string, w1: string, w2: string, rest: string)
    requires RegexTrimmed(key)
    requires forall i :: 0 <= i < |w1| ==> IsRegexWs(w1[i])
    requires forall i :: 0 <= i < |w2| ==> IsRegexWs(w2[i])
    requires NoLineTerm(rest)
    ensures MatchValue(key, w1 + key + w2 + "=" + rest) == Some(rest)
  {
    var line := w1 + key + w2 + "=" + rest;
    var a, b := |w1|, |w1| + |key| + |w2|;
    forall i | 0 <= i < a
      ensures IsRegexWs(line[i])
    {
      assert line[i] == w1[i];
    }
    forall j | 0 <= j < |key|
      ensures line[a + j] == key[j]
    {
    }
    forall i | a + |key| <= i < b
      ensures IsRegexWs(line[i])
    {
      assert line[i] == w2[i - a - |key|];
    }
    assert line[b + 1..] == rest;
    NoLineTermFromIsSuffix(line, b + 1);
    assert ShapeAt(key, line, a, b);
    MatchValueComplete(key, line, a, b);
  }

  /** The line the editor writes, `key=value`, matches its own key and
      captures exactly `value`. */
  lemma AssignmentMatches(key: string, value: string)
    requires RegexTrimmed(key)
    requires NoLineTerm(value)
    ensures MatchValue(key, key + "=" + value) == Some(value)
  {
    PaddedAssignmentMatches(key, "", "", value);
    assert "" + key + "" + "=" + value == key + "=" + value;
  }

  /** A key that is a proper prefix of the line's key does not match: after
      `k` comes neither a blank nor `=`. */
  lemma LongerKeyDoesNotMatch(k: string, more: string, value: string)
    requires RegexTrimmed(k)
    requires more != [] && !IsRegexWs(more[0]) && more[0] != '='
    ensures MatchValue(k, k + more + "=" + value).None?
  {
    var line := k + more + "=" + value;
    assert line[0] == if k != [] then k[0] else more[0];
    SkipWsIs(line, 0, 0);
    assert KeyAt(k, line, 0);
    assert line[|k|] == more[0];
    SkipWsIs(line, |k|, |k|);
  }

  /** A commented-out line never matches a key that does not itself begin
      with `#`. */
  lemma CommentNeverMatches(k: string, rest: string)
    requires RegexTrimmed(k)
    requires k == [] || k[0] != '#'
    ensures MatchValue(k, "#" + rest).None?
  {
    var line := "#" + rest;
    SkipWsIs(line, 0, 0);
    if k != [] {
      assert line[0 + 0] != k[0];
    }
  }

  /** A value holding a line terminator cannot be captured by `.*`: the
      assignment `k=rest` then does not match at all. */
  lemma LineTerminatorInValueDoesNotMatch(k: string, rest: string)
    requires RegexTrimmed(k)
    requires !NoLineTerm(rest)
    ensures MatchValue(k, k + "=" + rest).None?
  {
    var line := k + "=" + rest;
    assert line[0] == if k != [] then k[0] else '=';
    SkipWsIs(line, 0, 0);
    assert KeyAt(k, line, 0);
    assert line[|k|] == '=';
    SkipWsIs(line, |k|, |k|);
    assert EqualsAt(k, line) == Some(|k|);
    var t :| 0 <= t < |rest| && IsLineTerm(rest[t]);
    assert line[|k| + 1 + t] == rest[t];
  }
}

=== FILE: text.dfy ===
/** Character classes and string operations shared by the editor and the
    command-line driver: the two whitespace notions the source mixes (the
    regular-expression class `\s` and Kotlin's `trim`), line terminators,
    prefixes and single-character splitting. */
module Text {

  /** Java's regular-expression class `\s` without UNICODE_CHARACTER_CLASS:
      space, tab, line feed, vertical tab, form feed, carriage return. */
  predicate IsRegexWs(c: char) {
    c == ' ' || ('\t' <= c <= '\r')
  }

  /** Kotlin's `Char.isWhitespace` on the JVM: `Character.isWhitespace` or
      `Character.isSpaceChar`, i.e. the ASCII controls 9-13 and 28-31 plus every
      space, line and paragraph separator of current Unicode. */
  predicate IsTrimWs(c: char) {
    || ('\t' <= c <= '\r')
    || ('\U{001C}' <= c <= ' ')
    || c == '\U{00A0}' || c == '\U{1680}'
    || ('\U{2000}' <= c <= '\U{200A}')
    || c == '\U{2028}' || c == '\U{2029}' || c == '\U{202F}' || c == '\U{205F}'
    || c == '\U{3000}'
  }

  /** The characters Java's `.` refuses to match without DOTALL. */
  predicate IsLineTerm(c: char) {
    c == '\n' || c == '\r' || c == '\U{0085}' || c == '\U{2028}' || c == '\U{2029}'
  }

  predicate NoLineTerm(s: string) {
    forall i :: 0 <= i < |s| ==> !IsLineTerm(s[i])
  }

  /** Every regular-expression space is also a Kotlin whitespace character, so a
      string that `trim` leaves alone cannot begin or end with `\s`. */
  lemma RegexWsIsTrimWs(c: char)
    ensures IsRegexWs(c) ==> IsTrimWs(c)
  {
  }

  /** Kotlin `startsWith`: `s` begins with `prefix`. */
  predicate StartsWith(s: string, prefix: string) {
    |prefix| <= |s| && s[..|prefix|] == prefix
  }

  /** Kotlin `endsWith`: `s` ends with `suffix`. */
  predicate EndsWith(s: string, suffix: string) {
    |suffix| <= |s| && s[|s| - |suffix|..] == suffix
  }

  /** Kotlin `removePrefix`: drops `prefix` once when present. */
  function RemovePrefix(s: string, prefix: string): (r: string)
    ensures StartsWith(s, prefix) ==> prefix + r == s
    ensures !StartsWith(s, prefix) ==> r == s
  {
    if StartsWith(s, prefix) then s[|prefix|..] else s
  }

  /** Kotlin `removeSuffix`: drops `suffix` once when present. */
  function RemoveSuffix(s: string, suffix: string): (r: string)
    ensures EndsWith(s, suffix) ==> r + suffix == s
    ensures !EndsWith(s, suffix) ==> r == s
  {
    if EndsWith(s, suffix) then s[..|s| - |suffix|] else s
  }

  /** Kotlin `isBlank`: empty or whitespace only. */
  predicate IsBlank(s: string) {
    forall i :: 0 <= i < |s| ==> IsTrimWs(s[i])
  }

  /** Kotlin `trimStart()`: drops whitespace from the front. */
  function TrimStart(s: string): string
    decreases |s|
  {
    if |s| > 0 && IsTrimWs(s[0]) then TrimStart(s[1..]) else s
  }

  /** Kotlin `trimEnd()`: drops whitespace from the back. */
  function TrimEnd(s: string): string
    decreases |s|
  {
    if |s| > 0 && IsTrimWs(s[|s| - 1]) then TrimEnd(s[..|s| - 1]) else s
  }

  /** Kotlin `trim()`: whitespace removed from both ends. */
  function Trim(s: string): string
  {
    TrimEnd(TrimStart(s))
  }

  /** `trimStart` keeps the longest suffix of `s` that does not start with
      whitespace, and everything it drops is whitespace. */
  lemma {:induction false} TrimStartSpec(s: string)
    ensures var r := TrimStart(s);
      && |r| <= |s| && r == s[|s| - |r|..]
      && (forall i :: 0 <= i < |s| - |r| ==> IsTrimWs(s[i]))
      && (r != [] ==> !IsTrimWs(r[0]))
    decreases |s|
  {
    if |s| > 0 && IsTrimWs(s[0]) {
      TrimStartSpec(s[1..]);
      var r := TrimStart(s[1..]);
      forall i | 0 <= i < |s| - |r|
        ensures IsTrimWs(s[i])
      {
        if i > 0 {
          assert s[i] == s[1..][i - 1];
        }
      }
      assert s[1..][|s| - 1 - |r|..] == s[|s| - |r|..];
    }
  }

  /** `trimEnd` keeps the longest prefix of `s` that does not end with
      whitespace, and everything it drops is whitespace. */
  lemma {:induction false} TrimEndSpec(s: string)
    ensures var r := TrimEnd(s);
      && |r| <= |s| && r == s[..|r|]
      && (forall i :: |r| <= i < |s| ==> IsTrimWs(s[i]))
      && (r != [] ==> !IsTrimWs(r[|r| - 1]))
    decreases |s|
  {
    if |s| > 0 && IsTrimWs(s[|s| - 1]) {
      var n := |s| - 1;
      TrimEndSpec(s[..n]);
      var r := TrimEnd(s[..n]);
      forall i | |r| <= i < |s|
        ensures IsTrimWs(s[i])
      {
        if i < n {
          assert s[i] == s[..n][i];
        }
      }
      assert s[..n][..|r|] == s[..|r|];
    }
  }

  /** What `trim` keeps is a contiguous slice of its argument, everything
      dropped is whitespace, and what is kept starts and ends with a
      non-whitespace character. */
  lemma TrimIsTrimmedSlice(s: string)
    ensures var i, r := |s| - |TrimStart(s)|, Trim(s);
      && 0 <= i <= i + |r| <= |s| && r == s[i..i + |r|]
      && (forall j :: 0 <= j < i ==> IsTrimWs(s[j]))
      && (forall j :: i + |r| <= j < |s| ==> IsTrimWs(s[j]))
      && (r != [] ==> !IsTrimWs(r[0]) && !IsTrimWs(r[|r| - 1]))
  {
    var t := TrimStart(s);
    var r := TrimEnd(t);
    var i := |s| - |t|;
    TrimStartSpec(s);
    TrimEndSpec(t);
    assert t == s[i..];
    assert r == t[..|r|];
    assert r == s[i..i + |r|];
    forall j | i + |r| <= j < |s|
      ensures IsTrimWs(s[j])
    {
      assert s[j] == t[j - i];
    }
    if r != [] {
      assert r[0] == t[0];
    }
  }

  /** A string with no whitespace at either end is its own trim. */
  lemma TrimOfTrimmed(s: string)
    requires s == [] || (!IsTrimWs(s[0]) && !IsTrimWs(s[|s| - 1]))
    ensures Trim(s) == s
  {
    assert TrimStart(s) == s;
    assert TrimEnd(s) == s;
  }

  /** Trimming twice is trimming once. */
  lemma TrimIdempotent(s: string)
    ensures Trim(Trim(s)) == Trim(s)
  {
    TrimIsTrimmedSlice(s);
    TrimOfTrimmed(Trim(s));
  }

  /** `trimStart` removes a whitespace prefix and stops at the first other
      character. */
  lemma {:induction false} TrimStartBlankPrefix(w: string, c: string)
    requires IsBlank(w)
    requires c == [] || !IsTrimWs(c[0])
    ensures TrimStart(w + c) == c
    decreases |w|
  {
    if |w| > 0 {
      assert (w + c)[1..] == w[1..] + c;
      TrimStartBlankPrefix(w[1..], c);
    }
  }

  /** `trimEnd` removes a whitespace suffix and stops at the last other
      character. */
  lemma {:induction false} TrimEndBlankSuffix(c: string, w: string)
    requires IsBlank(w)
    requires c == [] || !IsTrimWs(c[|c| - 1])
    ensures TrimEnd(c + w) == c
    decreases |w|
  {
    if |w| > 0 {
      var n := |w| - 1;
      assert (c + w)[..|c + w| - 1] == c + w[..n];
      TrimEndBlankSuffix(c, w[..n]);
    }
  }

  /** Whatever whitespace surrounds a string with non-whitespace ends, `trim`
      gives back that string. */
  lemma TrimPadded(w1: string, c: string, w2: string)
    requires IsBlank(w1) && IsBlank(w2)
    requires c == [] || (!IsTrimWs(c[0]) && !IsTrimWs(c[|c| - 1]))
    ensures Trim(w1 + c + w2) == c
  {
    if c == [] {
      assert w1 + c + w2 == w1 + w2;
      assert IsBlank(w1 + w2);
      TrimStartBlankPrefix(w1 + w2, []);
      assert w1 + w2 + [] == w1 + w2;
    } else {
      assert w1 + c + w2 == w1 + (c + w2);
      TrimStartBlankPrefix(w1, c + w2);
      TrimEndBlankSuffix(c, w2);
    }
  }

  /** Joins `parts` with `sep` between neighbours (Kotlin `joinToString`). */
  function Join(parts: seq<string>, sep: char): string
    decreases |parts|
  {
    if |parts| == 0 then ""
    else if |parts| == 1 then parts[0]
    else parts[0] + [sep] + Join(parts[1..], sep)
  }

  /** Kotlin `split(sep)` on a single character: the maximal `sep`-free pieces,
      always at least one, empty pieces included. */
  function Split(s: string, sep: char): (parts: seq<string>)
    ensures |parts| >= 1
    ensures forall i :: 0 <= i < |parts| ==> sep !in parts[i]
    ensures Join(parts, sep) == s
    decreases |s|
  {
    if |s| == 0 then [""]
    else
      var tail := Split(s[1..], sep);
      if s[0] == sep then [""] + tail
      else [[s[0]] + tail[0]] + tail[1..]
  }

  /** Splitting a string with no separator yields the string itself. */
  lemma {:induction false} SplitNoSep(s: string, sep: char)
    requires sep !in s
    ensures Split(s, sep) == [s]
    decreases |s|
  {
    if |s| > 0 {
      assert sep !in s[1..];
      SplitNoSep(s[1..], sep);
      assert [s[0]] + s[1..] == s;
    }
  }

  /** A separator after a separator-free head starts a new piece. */
  lemma {:induction false} SplitAfterPiece(x: string, sep: char, y: string)
    requires sep !in x
    ensures Split(x + [sep] + y, sep) == [x] + Split(y, sep)
    decreases |x|
  {
    var s := x + [sep] + y;
    if |x| == 0 {
      assert s[0] == sep && s[1..] == y;
    } else {
      assert s[1..] == x[1..] + [sep] + y;
      assert sep !in x[1..];
      SplitAfterPiece(x[1..], sep, y);
      assert [x[0]] + x[1..] == x;
    }
  }

  /** Splitting inverts joining, for separator-free pieces. */
  lemma {:induction false} SplitJoin(parts: seq<string>, sep: char)
    requires |parts| >= 1
    requires forall i :: 0 <= i < |parts| ==> sep !in parts[i]
    ensures Split(Join(parts, sep), sep) == parts
    decreases |parts|
  {
    if |parts| == 1 {
      SplitNoSep(parts[0], sep);
    } else {
      SplitJoin(parts[1..], sep);
      SplitAfterPiece(parts[0], sep, Join(parts[1..], sep));
      assert [parts[0]] + parts[1..] == parts;
    }
  }

  /** Joining two non-empty lists is joining each and putting one separator
      between the results. */
  lemma {:induction false} JoinAppend(p: seq<string>, q: seq<string>, sep: char)
    requires |p| >= 1 && |q| >= 1
    ensures Join(p + q, sep) == Join(p, sep) + [sep] + Join(q, sep)
    decreases |p|
  {
    if |p| == 1 {
      assert (p + q)[1..] == q;
    } else {
      JoinAppend(p[1..], q, sep);
      assert (p + q)[1..] == p[1..] + q;
    }
  }

  /** Replacing one separator by another inside a join: the pieces, which do
      not hold the old separator, are joined with the new one instead. */
  lemma {:induction false} ReplaceInJoin(parts: seq<string>, from: char, to: char)
    requires forall i :: 0 <= i < |parts| ==> from !in parts[i]
    ensures ReplaceChar(Join(parts, from), from, to) == Join(parts, to)
    decreases |parts|
  {
    if |parts| == 1 {
      assert ReplaceChar(parts[0], from, to) == parts[0];
    } else if |parts| > 1 {
      ReplaceInJoin(parts[1..], from, to);
      var tail := Join(parts[1..], from);
      var whole := parts[0] + [from] + tail;
      var r := ReplaceChar(whole, from, to);
      assert r == parts[0] + [to] + ReplaceChar(tail, from, to);
    }
  }

  /** Kotlin `replace(old, new)` on characters: the length is kept, no `old`
      survives, and a string without `old` comes back unchanged. */
  function ReplaceChar(s: string, from: char, to: char): (r: string)
    ensures |r| == |s|
    ensures from != to ==> from !in r
    ensures from !in s ==> r == s
  {
    seq(|s|, i requires 0 <= i < |s| => if s[i] == from then to else s[i])
  }

  /** Replacing back undoes a replacement whenever the new character did not
      occur in the string before. */
  lemma ReplaceCharUndo(s: string, from: char, to: char)
    requires to !in s
    ensures ReplaceChar(ReplaceChar(s, from, to), to, from) == s
  {
    var r := ReplaceChar(s, from, to);
    forall i | 0 <= i < |s|
      ensures ReplaceChar(r, to, from)[i] == s[i]
    {
      assert s[i] != to;
    }
  }
}

=== FILE: wrappers.dfy ===
/** Option and Result, the failure-carrying values the rest of the model returns
    in place of Kotlin's nullable types and thrown exceptions. */
module Wrappers {

  datatype Option<+T> = None | Some(value: T) {

    /** The wrapped value, or `default` when there is none. */
    function GetOr(default: T): T {
      match this
      case Some(v) => v
      case None => default
    }
  }

  datatype Result<+R, +E> = Success(value: R) | Failure(error: E)
}
